=== FILE: README.md ===
# Carrom client rules in Dafny

This project models the game logic of a two-player browser carrom game. The
logic runs around a rigid-body engine (Matter.js) and a socket relay. The
engine is reduced to plain records: a body is a position, a velocity, an
angular velocity, a mass and an identity. The relay simply rebroadcasts two
events, so the model returns each socket emission as a value. Coordinates
and speeds are exact reals. Every test the game makes on `Math.sqrt(...)` is
stated on the square instead, exactly. The game's own name for each thing is
kept.

The code has no host election, turn rotation, replicated physics or
foul/continue decision. The server only relays `drawTrajectory` and
`adjustStriker`, and each client runs its own simulation. The score panel
shows totals out of "/160" (ScoreManager.tsx:175), while the win threshold
`WIN_CONDITION` is 50 (ScoreManager.tsx:22). The model uses 50.

Modules, one per concern:

- `Geometry` (geometry.dfy): points, squared norms, the 180° reflection `2c − p`, the board record and the board the game builds (offset 150, 50; size 500).
- `Bodies` (bodies.dfy): coin types, bodies, tracked coins, `Array.find` as `FirstIndex`/`Find`.
- `Physics` (physics.dfy): `isBodyMoving`, `areAllBodiesStopped`, `getTotalKineticEnergy`, `stopBody`, `stopAllBodies`.
- `ScoreManager` (score_manager.dfy): `getPointsForCoin`, `addPoints`, `resetScore`, `WIN_CONDITION`.
- `GameStateManager` (game_state_manager.dfy): the throttled, edge-triggered stop detector as an explicit state record with the clock as a parameter, `handleCoinPocketed`, `resetStriker`.
- `GameUtils` (game_utils.dfy): the four striker baselines, `isOnThresholdLine`, `findStrikerAtPosition`, `calculateStrikerVelocity`.
- `CarromCoins` (carrom_coins.dfy): the coin types `createCarromCoins` produces, in order.
- `CarromGame` (carrom_game.dfy): the opponent's mirrored aim preview, pocket-pair detection, removal from the tracked list, scoring on a pocket, mouse down/move/up.
- `StrikerControl` (striker_control.dfy): `updateStrikerPosition`, the slider effect with its echo-suppression flag, the `adjustStriker` handler, and the `onAllStopped` reset.

The stop detector treats a coin as stopped when its speed is strictly below
the threshold. `areAllBodiesStopped` only asks that no body is moving, so a
speed equal to the threshold counts as stopped there. `ThresholdSpeedDisagrees`
shows such a coin.

`resetStriker` puts the striker on the bottom threshold line at
`oy + size − oy/2`. `updateStrikerPosition` uses the baseline at
`oy + size − 80` instead. The game component never calls `resetStriker`.

## Model

| member | source | states |
|---|---|---|
| Physics.MovingIffFaster | apps/web/app/components/utils/physics.tsx:9-16 | the squared test on a body agrees with "speed > threshold" for every threshold, including negative ones |
| Physics.AreAllBodiesStopped | apps/web/app/components/utils/physics.tsx:19-24 | true exactly when no body in the list is moving; true of the empty list |
| Physics.KineticEnergy | apps/web/app/components/utils/physics.tsx:29-32 | one body's ½·m·speed² is non-negative when its mass is, 0 for a body at rest, and positive for a body with mass that moves |
| Physics.TotalKineticEnergy | apps/web/app/components/utils/physics.tsx:27-33 | the sum is 0 for no bodies and non-negative when every mass is |
| Physics.NoEnergyIffAtRest | apps/web/app/components/utils/physics.tsx:27-33 | when every mass is positive, the total energy is 0 exactly when every body is at rest |
| Physics.KineticEnergyAdditive | apps/web/app/components/utils/physics.tsx:27-33 | the energy of two lists joined is the sum of their energies |
| Physics.StopBody | apps/web/app/components/utils/physics.tsx:36-39 | velocity and angular velocity become zero; identity, position and mass are kept |
| Physics.StopAllBodies | apps/web/app/components/utils/physics.tsx:42-44 | every body in the list, in order, is at rest with its identity, position and mass kept |
| Physics.RestingBodiesHaveNoEnergy | apps/web/app/components/utils/physics.tsx:27-33 | bodies that are all at rest have total energy 0, whatever their masses |
| Physics.StopAllBodiesStops | apps/web/app/components/utils/physics.tsx:42-44 | after stopping all bodies the list counts as stopped for every non-negative threshold and holds no energy |
| ScoreManager.Credit | apps/web/app/components/game/ScoreManager.tsx:43-47 | the pocketed type's counter goes up by one, the other counters do not move, the total strictly grows, and the point table 10/20/50 stays true |
| ScoreManager.AddPoints | apps/web/app/components/game/ScoreManager.tsx:35-77 | only the credited player changes; the returned value is what was added to that player's total; reaching 50 sets the win flag and names that player; below 50 the previous winner and flag carry over; a won game stays won |
| ScoreManager.ResetScore | apps/web/app/components/game/ScoreManager.tsx:79-88 | every counter and total of both players is zero, no winner, game not won |
| ScoreManager.ReplayInvariant | apps/web/app/components/game/ScoreManager.tsx:28-88 | from the initial score, any sequence of adds and resets keeps total = 10·black + 20·white + 50·queen for both players; the game is won exactly when a player has at least 50 and a winner is named; the named winner has at least 50 |
| GameStateManager.BelowIffSlower | apps/web/app/components/game/GameStateManager.tsx:35-41 | the squared test agrees with "speed < threshold" for every threshold |
| GameStateManager.AllBelow | apps/web/app/components/game/GameStateManager.tsx:35-41 | the `every` over the coins holds exactly when each coin is below the threshold; true of no coins |
| GameStateManager.ThresholdSpeedDisagrees | apps/web/app/components/game/GameStateManager.tsx:40 | a coin exactly at the threshold speed is stopped for the physics helper but not below it for the detector |
| GameStateManager.DetectorStopImpliesStopped | apps/web/app/components/game/GameStateManager.tsx:35-41 | whenever the detector sees every coin below the threshold, `areAllBodiesStopped` holds of their bodies |
| GameStateManager.CheckAllStopped | apps/web/app/components/game/GameStateManager.tsx:24-55 | a check under 100 ms after the last accepted one returns false and changes nothing; an accepted one records the time, returns whether all coins are below the threshold, sets the latch to that, and fires only on a moving-to-stopped edge |
| GameStateManager.FiresOncePerStop | apps/web/app/components/game/GameStateManager.tsx:43-50 | across any run of polls that all see the coins stopped, the callback fires at most once, and never when the latch was already set |
| GameStateManager.FirstStopFiresOnce | apps/web/app/components/game/GameStateManager.tsx:15-55 | from the initial detector state with the default threshold 0.5, a run of polls that all see the coins stopped, whose first poll is at least 100 ms after time 0, fires `onAllStopped` exactly once |
| GameStateManager.HandleCoinPocketed | apps/web/app/components/game/GameStateManager.tsx:58-68 | reports the type of the first tracked coin with that body ("striker" included), and nothing for an untracked body |
| GameStateManager.ResetStriker | apps/web/app/components/game/GameStateManager.tsx:71-104 | with no striker or no geometry (or an x offset of 0) nothing changes; otherwise only the first striker changes: it keeps its identity and mass and is at rest on the bottom threshold line, at the x the slider value selects (`ResetPosition`) |
| GameStateManager.ResetLandsOnBottomThreshold | apps/web/app/components/game/GameStateManager.tsx:83-94 | for slider values in (0, 100] the reset position is reported by the threshold-line test as on the bottom line, unmoved |
| GameUtils.StrikerPositionOnLine | apps/web/app/components/GameUtils.tsx:5-36 | for a fraction in [0, 1] on a board of size at least 260, the point lies on its side's baseline, 130 pixels clear of both ends |
| GameUtils.BottomRunsRight | apps/web/app/components/GameUtils.tsx:15-19 | on a board wider than the two margins, a larger fraction lies strictly further right on the bottom line |
| GameUtils.SliderMovesStriker | apps/web/app/components/GameUtils.tsx:15-34 | fraction 0 and fraction 1 are the two ends of each baseline, 130 pixels in from the corners; a larger fraction lies strictly further right on the bottom line, further left on the top line, and further down on the left and right lines |
| GameUtils.TopRunsReversed | apps/web/app/components/GameUtils.tsx:20-24 | fraction p on the top line has the x of fraction 1 − p on the bottom line |
| GameUtils.TopIsReflectedBottom | apps/web/app/components/GameUtils.tsx:15-24 | fraction p on the top line is fraction p on the bottom line turned half a turn about the board centre |
| GameUtils.RightMirrorsLeft | apps/web/app/components/GameUtils.tsx:25-34 | the right line is the left line mirrored across the vertical centre line |
| GameUtils.IsOnThresholdLine | apps/web/app/components/GameUtils.tsx:39-90 | no result exactly when the point is near no line; otherwise the first near line in the order left, right, top, bottom, with the point moved onto that line's fixed coordinate |
| GameUtils.SnapIsSmall | apps/web/app/components/GameUtils.tsx:49-89 | the snapped point moves along one axis only, by less than the 30-pixel tolerance |
| GameUtils.StrikerUnderIffClose | apps/web/app/components/GameUtils.tsx:99-103 | the squared test agrees with "a striker within distance 20" |
| GameUtils.FindStrikerAtPosition | apps/web/app/components/GameUtils.tsx:93-107 | the result is the first coin in list order that is a striker within 20 pixels; never a non-striker; none exactly when no striker is that close |
| GameUtils.ShotPower | apps/web/app/components/GameUtils.tsx:118-120 | power is distance/30 capped at 100 |
| GameUtils.CalculateStrikerVelocity | apps/web/app/components/GameUtils.tsx:110-131 | zero velocity for a drag of length at most 10; otherwise each component has the opposite sign to the drag's component (zero when it is zero), and the velocity is parallel to the drag |
| GameUtils.ShotSpeed | apps/web/app/components/GameUtils.tsx:115-122 | with the game's drag length, the shot leaves at ¾ of its power, so its speed is at most 75 |
| CarromCoins.ChoiceKeepsCaps | apps/web/app/components/CarromCoins.tsx:100-115 | while fewer than 18 coloured coins exist, a colour is chosen only if fewer than 9 of it exist |
| CarromCoins.LayRing | apps/web/app/components/CarromCoins.tsx:87-119 | one ring: only white and black, counters track the coins laid, never beyond 9 when there is room, and strict alternation from the ring's start colour when both colours have room |
| CarromCoins.CreateCarromCoins | apps/web/app/components/CarromCoins.tsx:58-122 | 19 coins: the queen first, six alternating white/black, twelve alternating black/white; exactly 9 white, 9 black, 1 queen, no striker |
| CarromGame.TransformCoordinate | apps/web/app/components/CarromGame.tsx:169-191 | null stays null; a point and its image have (400, 300) as midpoint |
| CarromGame.TransformInvolution | apps/web/app/components/CarromGame.tsx:183-187 | transforming twice gives the original back |
| CarromGame.TransformFixesOnlyCentre | apps/web/app/components/CarromGame.tsx:183-187 | a point is its own image exactly when it is the board centre |
| CarromGame.OpponentBottomSeenOnTop | apps/web/app/components/CarromGame.tsx:172-178 | the hardcoded centre is the centre of the board the game builds, so a striker at p on the bottom line appears at p on the top line |
| CarromGame.ReceiveTrajectory | apps/web/app/components/CarromGame.tsx:193-202 | the dragging flag is copied; each point is present exactly when it was sent, and then it is that point turned half a turn about (400, 300): the two coordinates sum to 800 and 600 |
| CarromGame.ReceiveTrajectoryInvolution | apps/web/app/components/CarromGame.tsx:193-202 | receiving a received trajectory again restores the original message |
| CarromGame.RemotePreview | apps/web/app/components/CarromGame.tsx:351-376 | drawn exactly when dragging with both points present, using those points; the received striker position is used when present, and the origin when it is missing |
| CarromGame.EndOfGestureClearsPreview | apps/web/app/components/CarromGame.tsx:546-555 | after the end-of-gesture message arrives nothing is drawn for the opponent |
| CarromGame.ClassifyPair | apps/web/app/components/CarromGame.tsx:300-304 | a pocket event happens exactly when one body of the pair is a pocket; the pocketed body is the other one |
| CarromGame.RemoveBody | apps/web/app/components/CarromGame.tsx:315 | exactly the coins with the pocketed body go; every other coin stays; the list shrinks exactly when the body was tracked |
| CarromGame.RemoveBodyKeepsOrder | apps/web/app/components/CarromGame.tsx:315 | removal of a joined list is the join of the removals, so the remaining coins keep their order |
| CarromGame.OnCoinPocketed | apps/web/app/components/CarromGame.tsx:54-61 | a pocketed striker changes no score; another coin adds its points to the credited player and leaves the other player alone |
| CarromGame.OnCollisionPair | apps/web/app/components/CarromGame.tsx:295-319 | the body scheduled for removal is exactly the pair's pocketed body: none when the pair is not one pocket and one other body, else the non-pocket body; a tracked body is scored through the pocket callback and an untracked one scores nothing |
| CarromGame.MouseDown | apps/web/app/components/CarromGame.tsx:427-476 | with no striker under the pointer nothing happens; otherwise a zero-length drag starts on a striker under the pointer and the opponent is told that drag state |
| CarromGame.MouseMove | apps/web/app/components/CarromGame.tsx:478-508 | without a held striker nothing happens; otherwise only the current drag point moves and the opponent is told the new drag state |
| CarromGame.MouseUp | apps/web/app/components/CarromGame.tsx:510-556 | without a complete drag nothing happens; otherwise drag state is cleared, the end-of-gesture message is sent, and the striker is shot exactly when six times the drag leaves the dead zone |
| CarromGame.DeadZoneIsDragLength | apps/web/app/components/CarromGame.tsx:518-529 | the velocity is non-zero exactly when 36·(dx² + dy²) exceeds 100 |
| StrikerControl.SameKindsSameStriker | apps/web/app/components/CarromGame.tsx:100 | changing only bodies keeps the first striker at the same index |
| StrikerControl.UpdateStrikerPosition | apps/web/app/components/CarromGame.tsx:92-146 | a no-op while anything is missing; otherwise only the first striker moves, onto the top line if the opponent flag is set and the bottom line if not; the striker is left at rest; the flag is cleared |
| StrikerControl.SliderEffect | apps/web/app/components/CarromGame.tsx:413-424 | places the striker, sends the slider position exactly when the change is local and the socket is connected, and always clears the echo flag; the slider value stays, and on a ready board the striker is put at rest at the slider value on the top line if the opponent flag was set and the bottom line if not, and the flag is cleared. Nothing else changes: the engine flag, the board geometry and every other coin stay, the striker keeps its identity, kind and mass, and on a board that is not ready no coin and not the opponent flag changes |
| StrikerControl.SetSlider | apps/web/app/components/CarromGame.tsx:413-424 | setting the value the slider already shows changes nothing and sends nothing; a new value is stored, clears the echo flag, is sent exactly when the echo flag was clear and the socket is connected, and, when the board is ready, puts the striker at rest at that value on the top line if the opponent flag was set and the bottom line if not. Nothing else changes: the engine flag, the board geometry and every other coin stay, the striker keeps its identity, kind and mass, and on a board that is not ready no coin and not the opponent flag changes |
| StrikerControl.SetGameObjects | apps/web/app/components/CarromGame.tsx:284-292 | storing the board geometry also runs the slider effect at the current value: the geometry is stored, the echo flag cleared, the value sent exactly when the echo flag was clear and the socket connected, and the striker placed at rest on its line with the opponent flag cleared. Nothing else changes: the engine flag and every other coin stay, the striker keeps its identity, kind and mass, and on a board that is not ready no coin and not the opponent flag changes |
| StrikerControl.ReceiveAdjust | apps/web/app/components/CarromGame.tsx:209-214 | a received position is never sent back; when it differs from the slider, the striker goes to that position on the top line at rest, and both flags are cleared; when it equals the slider, only the two flags change, both to set. Nothing else changes: the engine flag, the board geometry and every other coin stay, the striker keeps its identity, kind and mass, and on a board that is not ready no coin changes; the opponent flag stays set on a board that is not ready |
| StrikerControl.LocalSlide | apps/web/app/components/CarromGame.tsx:655 | a local change of value is sent when no echo flag is set and the socket is connected; an unchanged value sends nothing |
| StrikerControl.StaleFlagsAfterEqualAdjust | apps/web/app/components/CarromGame.tsx:209-214 | after a received position equal to the slider, both flags stay set; the next local move is not sent and goes to the top line |
| StrikerControl.ReceiveAdjustCorrected | apps/web/app/components/CarromGame.tsx:209-214 | the received position is always applied on the top line, never sent back, and puts the striker at rest; the echo flag is cleared, and the opponent flag is cleared on a ready board and stays set on one that is not. Nothing else changes: the engine flag, the board geometry and every other coin stay, the striker keeps its identity, kind and mass, and on a board that is not ready no coin changes |
| StrikerControl.CorrectedAdjustThenLocalSlide | apps/web/app/components/CarromGame.tsx:209-214 | with the corrected handler, the next local move after any received position is sent and lands on the bottom line |
| StrikerControl.AfterAllStopped | apps/web/app/components/CarromGame.tsx:41-53 | the slider ends at 50; when it was already 50 nothing changes and nothing is sent; otherwise the echo flag is cleared, 50 is sent exactly when the echo flag was clear and the socket connected, and a ready board gets the striker at rest in the middle of the top line if the opponent flag was set and the bottom line if not. Nothing else changes: the engine flag, the board geometry and every other coin stay, the striker keeps its identity, kind and mass, and on a board that is not ready no coin and not the opponent flag changes |
| StrikerControl.StrikerNotResetAtFifty | apps/web/app/components/CarromGame.tsx:41-53 | with the slider already at 50, a striker resting away from the bottom centre stays where it is, while the intended callback brings it to the bottom centre |
| StrikerControl.AfterAllStoppedCorrected | apps/web/app/components/CarromGame.tsx:41-53 | with the current board geometry, the striker ends at rest in the middle of the bottom line unless the opponent flag is left over with the slider already at 50; the slider ends at 50; 50 is sent exactly when the slider moved, the echo flag was clear and the socket connected; the echo flag stays only when the slider was already at 50; a ready board has the opponent flag cleared. Nothing else changes: the engine flag, the board geometry and every other coin stay, the striker keeps its identity, kind and mass, and on a board that is not ready no coin and not the opponent flag changes |

## Findings

| source | as written | input that shows it | evidently intended | confidence | as-written member | corrected member |
|---|---|---|---|---|---|---|
| apps/web/app/components/CarromGame.tsx:209-214 | the `adjustStriker` handler sets `isRemoteUpdateRef` and `isOpponentPlayingRef`. It relies on the slider effect to clear them, but React runs no effect when the slider already has the received value | both clients set the slider to 50 after coins stop; the peer's `adjustStriker(50)` arrives while the local slider is already 50; then the local player moves the slider | the flags cover only the received message, so the next local move is sent and placed on the bottom line | medium, not executed | StrikerControl.StaleFlagsAfterEqualAdjust | StrikerControl.ReceiveAdjustCorrected |
| apps/web/app/components/CarromGame.tsx:41-53 | the game loop is set up once, at mount (lines 385-395), so it keeps the first render's `checkAllStopped` and, through it, the first render's `onAllStopped` and `updateStrikerPosition`. That `updateStrikerPosition` reads the first render's empty `gameObjects` (line 25) and returns at its offset check (lines 106-110). Only `setStrikerPosition(50)` has an effect | the player shoots without moving the slider, which is still at 50 from the last reset; the coins stop | the striker goes back to rest in the middle of the bottom line after every stop | medium, not executed | StrikerControl.StrikerNotResetAtFifty | StrikerControl.AfterAllStoppedCorrected |

## Left out

- The physics engine itself is left out. Stepping, body creation (`createGameBodies`, walls, pocket sensors), collision detection, `World.add`/`World.remove` and `setStatic` belong to Matter.js. Bodies are plain records, and a pocket event is a pair of body identities.
- Socket.io transport and the relay in apps/ws-backend/index.ts are left out: the relay only rebroadcasts two events. Emissions are returned as values. For `adjustStriker` the model takes whether the socket is connected as a parameter. Drag messages are always sent, as the socket always exists after mount.
- Timers and animation frames are left out. The 100 ms delay before a pocketed coin is removed is collapsed: the pocket step returns the body to remove, and `RemoveBody` removes it. The 200 ms and 50 ms delays of `onAllStopped` are collapsed into `AfterAllStopped`. `requestAnimationFrame` loops are not modelled, nor is the game loop's `coins.length > 0` guard around the stop check.
- Coin positions in `createCarromCoins` are left out: they come from cos/sin, and the model keeps only types and order. Body options (restitution, friction, density) are left out too.
- Square roots are left out. Speed and distance tests use squared magnitudes, which is exact. `calculateStrikerVelocity` takes the distance as an input, as in the source. `MouseUp` receives the root the handler computes, with a requires saying what it is.
- Floating point is left out: all arithmetic is on exact reals.
- Rendering is left out: the board, coins, trajectory drawing, score display, modals, pages and session storage. So are the "/160" display strings.
- `syncScore` and the `onScoreUpdate`/`onGameWon` callbacks are left out: the first replaces the whole state, and the callbacks only observe the new state.
- OnCoinPocketed: the player to credit is a parameter. The call site passes only the coin type, so player 2 is always credited. That wiring is not modelled as intended behaviour.
- The score display is left out, and it does not work as written. `useScoreManager` returns `gameScore`, so the component's `score` is undefined. `<ScoreDisplay score={score} />` (CarromGame.tsx:598) also passes no `gameScore` prop. `ScoreDisplay` destructures `gameScore` on its first line (game/ScoreManager.tsx:128), so it throws a TypeError on its first render and the component fails to render. Both rows under "## Findings" describe the handlers as they behave once that wiring is fixed.
- MouseDown: stale closures are left out. The global mouse handlers read React state captured at registration. The model uses one drag state for all three handlers.
- SetSlider: the slider effect also runs once on mount, after the mount effect (CarromGame.tsx:148) has built the engine and the coins. That run places nothing: its `gameObjects` is still the initial `{}`, so `updateStrikerPosition` returns at its offset check (CarromGame.tsx:106-110). It sends nothing either, because the socket created in the same pass is not connected yet. This run is not modelled. `SetGameObjects` covers the effect's other dependency.
- TotalKineticEnergy: the contract states the empty-list value and non-negativity. The value of a longer list is not stated there; `KineticEnergyAdditive` relates totals of joined lists, and `NoEnergyIffAtRest` says when the total is 0.

=== FILE: bodies.dfy ===
/** The game's view of a physics body and of a tracked coin (`CoinObj`). */
module Bodies {
  import opened Wrappers
  import opened Geometry

  /** The `type` field of a tracked coin. */
  datatype CoinType = White | Black | Queen | Striker

  /** A physics-engine body reduced to the fields the game reads and writes.
      `id` stands for the body's object identity, which the source compares
      with `===`. */
  datatype Body = Body(id: nat, position: Vec, velocity: Vec, angularVelocity: real, mass: real)

  /** A body together with its coin type. */
  datatype CoinObj = CoinObj(body: Body, kind: CoinType)

  /** Index of the first element satisfying `p`: the position `Array.find`
      stops at. */
  function FirstIndex<T>(s: seq<T>, p: T -> bool): (r: Option<nat>)
    ensures r.None? <==> forall i :: 0 <= i < |s| ==> !p(s[i])
    ensures r.Some? ==> r.value < |s| && p(s[r.value])
    ensures r.Some? ==> forall j :: 0 <= j < r.value ==> !p(s[j])
    decreases |s|
  {
    if |s| == 0 then None
    else if p(s[0]) then Some(0)
    else
      match FirstIndex(s[1..], p)
      case None => None
      case Some(k) => Some(k + 1)
  }

  /** `Array.find`: the first element satisfying `p`, if any. */
  function Find<T>(s: seq<T>, p: T -> bool): (r: Option<T>)
    ensures r.None? <==> forall i :: 0 <= i < |s| ==> !p(s[i])
    ensures r.Some? ==> exists i :: 0 <= i < |s| && s[i] == r.value && p(s[i])
                                    && forall j :: 0 <= j < i ==> !p(s[j])
  {
    match FirstIndex(s, p)
    case None => None
    case Some(i) => Some(s[i])
  }

  predicate IsStriker(c: CoinObj)
  {
    c.kind == Striker
  }

  /** `coins.find(c => c.type === "striker")`, as an index. */
  function FirstStriker(coins: seq<CoinObj>): Option<nat>
  {
    FirstIndex(coins, IsStriker)
  }

  /** Replaces the body of the coin at `i`, keeping its type. */
  function SetBody(coins: seq<CoinObj>, i: nat, b: Body): (r: seq<CoinObj>)
    requires i < |coins|
    ensures |r| == |coins|
    ensures r[i] == CoinObj(b, coins[i].kind)
    ensures forall j :: 0 <= j < |coins| && j != i ==> r[j] == coins[j]
  {
    coins[i := CoinObj(b, coins[i].kind)]
  }
}

=== FILE: carrom_coins.dfy ===
/** The coin types `createCarromCoins` lays out: the queen first, then two
    rings whose colours alternate while keeping to nine of each colour.
    Positions (angles and radii) are left out. */
module CarromCoins {
  import opened Bodies

  /** Nine coins of each colour make a set. */
  const PerColour: nat := 9

  /** One ring of the arrangement: how many coins and the colour of the first. */
  datatype Ring = Ring(count: nat, startWhite: bool)

  /** The inner ring of 6 starting white, then the outer ring of 12 starting black. */
  const Arrangements: seq<Ring> := [Ring(6, true), Ring(12, false)]

  /** The colour of coin `i` of a ring, given how many of each colour exist:
      the ring's own colour on even places, unless that colour is used up or
      the other colour is. */
  function ChooseType(startWhite: bool, i: nat, whites: nat, blacks: nat): CoinType
  {
    if startWhite then
      if whites < PerColour && (i % 2 == 0 || blacks >= PerColour) then White else Black
    else
      if blacks < PerColour && (i % 2 == 0 || whites >= PerColour) then Black else White
  }

  /** While fewer than eighteen colour coins exist, a choice never takes either
      colour past nine. */
  lemma ChoiceKeepsCaps(startWhite: bool, i: nat, whites: nat, blacks: nat)
    requires whites <= PerColour && blacks <= PerColour && whites + blacks < 2 * PerColour
    ensures ChooseType(startWhite, i, whites, blacks) == White ==> whites < PerColour
    ensures ChooseType(startWhite, i, whites, blacks) == Black ==> blacks < PerColour
  {
  }

  function Count(s: seq<CoinType>, t: CoinType): nat
    decreases |s|
  {
    if |s| == 0 then 0 else Count(s[..|s| - 1], t) + (if s[|s| - 1] == t then 1 else 0)
  }

  lemma {:induction false} CountConcat(a: seq<CoinType>, b: seq<CoinType>, t: CoinType)
    ensures Count(a + b, t) == Count(a, t) + Count(b, t)
    decreases |b|
  {
    if |b| == 0 {
      assert a + b == a;
    } else {
      assert (a + b)[..|a + b| - 1] == a + b[..|b| - 1];
      CountConcat(a, b[..|b| - 1], t);
    }
  }

  /** The colour a ring has at place `i` when nothing runs out. */
  function Alternating(startWhite: bool, i: nat): CoinType
  {
    if (i % 2 == 0) == startWhite then White else Black
  }

  /** The first `n` places of `ring` carry the alternating colours. */
  predicate AlternatesUpTo(ring: seq<CoinType>, startWhite: bool, n: nat)
    requires n <= |ring|
  {
    forall k :: 0 <= k < n ==> ring[k] == Alternating(startWhite, k)
  }

  /** Appending the next alternating colour extends an alternating prefix. */
  lemma AlternatesExtend(ring: seq<CoinType>, startWhite: bool, c: CoinType)
    requires AlternatesUpTo(ring, startWhite, |ring|) && c == Alternating(startWhite, |ring|)
    ensures AlternatesUpTo(ring + [c], startWhite, |ring| + 1)
  {
  }

  /** With room to alternate, and the counters where strict alternation puts
      them after `i` places, place `i` gets its alternating colour. */
  lemma RoomKeepsAlternating(r: Ring, i: nat, whites0: nat, blacks0: nat, whites: nat, blacks: nat)
    requires RoomToAlternate(r, whites0, blacks0) && i < r.count
    requires r.startWhite ==> whites == whites0 + (i + 1) / 2 && blacks == blacks0 + i / 2
    requires !r.startWhite ==> blacks == blacks0 + (i + 1) / 2 && whites == whites0 + i / 2
    ensures ChooseType(r.startWhite, i, whites, blacks) == Alternating(r.startWhite, i)
  {
  }

  /** How the even and odd place counts grow by one place. */
  lemma HalvesStep(i: nat)
    ensures i % 2 == 0 ==> (i + 2) / 2 == (i + 1) / 2 + 1 && (i + 1) / 2 == i / 2
    ensures i % 2 == 1 ==> (i + 2) / 2 == (i + 1) / 2 && (i + 1) / 2 == i / 2 + 1
  {
  }

  /** Room for a strict alternation: the ring's colour gets the even places
      and the other colour the odd ones. */
  predicate RoomToAlternate(r: Ring, whites: nat, blacks: nat)
  {
    var evens, odds := (r.count + 1) / 2, r.count / 2;
    if r.startWhite then whites + evens <= PerColour && blacks + odds <= PerColour
    else blacks + evens <= PerColour && whites + odds <= PerColour
  }

  /** The inner loop of `createCarromCoins` for one ring: the colours chosen
      and the two counters after it. */
  method LayRing(r: Ring, whites0: nat, blacks0: nat) returns (ring: seq<CoinType>, whites: nat, blacks: nat)
    ensures |ring| == r.count
    ensures forall k :: 0 <= k < |ring| ==> ring[k] == White || ring[k] == Black
    ensures whites == whites0 + Count(ring, White) && blacks == blacks0 + Count(ring, Black)
    ensures whites0 <= PerColour && blacks0 <= PerColour && whites0 + blacks0 + r.count <= 2 * PerColour ==>
              whites <= PerColour && blacks <= PerColour
    ensures RoomToAlternate(r, whites0, blacks0) ==>
              forall k :: 0 <= k < |ring| ==> ring[k] == Alternating(r.startWhite, k)
    ensures RoomToAlternate(r, whites0, blacks0) && r.startWhite ==>
              whites == whites0 + (r.count + 1) / 2 && blacks == blacks0 + r.count / 2
    ensures RoomToAlternate(r, whites0, blacks0) && !r.startWhite ==>
              blacks == blacks0 + (r.count + 1) / 2 && whites == whites0 + r.count / 2
  {
    ring, whites, blacks := [], whites0, blacks0;
    var capped := whites0 <= PerColour && blacks0 <= PerColour && whites0 + blacks0 + r.count <= 2 * PerColour;
    var room := RoomToAlternate(r, whites0, blacks0);
    for i := 0 to r.count
      invariant |ring| == i
      invariant forall k :: 0 <= k < i ==> ring[k] == White || ring[k] == Black
      invariant whites == whites0 + Count(ring, White) && blacks == blacks0 + Count(ring, Black)
      invariant whites + blacks == whites0 + blacks0 + i
      invariant capped ==> whites <= PerColour && blacks <= PerColour
      invariant room ==> AlternatesUpTo(ring, r.startWhite, i)
      invariant room && r.startWhite ==> whites == whites0 + (i + 1) / 2 && blacks == blacks0 + i / 2
      invariant room && !r.startWhite ==> blacks == blacks0 + (i + 1) / 2 && whites == whites0 + i / 2
    {
      if capped {
        ChoiceKeepsCaps(r.startWhite, i, whites, blacks);
      }
      var coinType := ChooseType(r.startWhite, i, whites, blacks);
      if room {
        RoomKeepsAlternating(r, i, whites0, blacks0, whites, blacks);
        AlternatesExtend(ring, r.startWhite, coinType);
        HalvesStep(i);
      }
      assert Count(ring + [coinType], White) == Count(ring, White) + (if coinType == White then 1 else 0);
      assert Count(ring + [coinType], Black) == Count(ring, Black) + (if coinType == Black then 1 else 0);
      if coinType == White {
        whites := whites + 1;
      } else {
        blacks := blacks + 1;
      }
      ring := ring + [coinType];
    }
  }

  /** `createCarromCoins`, types only: the queen, then six coins alternating
      white/black, then twelve alternating black/white, nine of each colour. */
  method CreateCarromCoins() returns (types: seq<CoinType>)
    ensures |types| == 19
    ensures types[0] == Queen
    ensures forall k :: 1 <= k < 7 ==> types[k] == (if (k - 1) % 2 == 0 then White else Black)
    ensures forall k :: 7 <= k < 19 ==> types[k] == (if (k - 7) % 2 == 0 then Black else White)
    ensures Count(types, White) == 9 && Count(types, Black) == 9
    ensures Count(types, Queen) == 1 && Count(types, Striker) == 0
  {
    var whiteCount, blackCount := 0, 0;
    var inner, outer;
    inner, whiteCount, blackCount := LayRing(Arrangements[0], whiteCount, blackCount);
    outer, whiteCount, blackCount := LayRing(Arrangements[1], whiteCount, blackCount);
    types := [Queen] + inner + outer;
    forall t: CoinType
      ensures Count(types, t) == Count([Queen], t) + Count(inner, t) + Count(outer, t)
    {
      CountConcat([Queen], inner, t);
      CountConcat([Queen] + inner, outer, t);
    }
    NoQueenInRing(inner);
    NoQueenInRing(outer);
  }

  lemma {:induction false} NoQueenInRing(ring: seq<CoinType>)
    requires forall k :: 0 <= k < |ring| ==> ring[k] == White || ring[k] == Black
    ensures Count(ring, Queen) == 0 && Count(ring, Striker) == 0
    decreases |ring|
  {
    if |ring| > 0 {
      NoQueenInRing(ring[..|ring| - 1]);
    }
  }
}

=== FILE: carrom_game.dfy ===
/** Client-side event rules of the game component: mirroring the opponent's
    aim preview, pocket detection and bookkeeping, and the aiming gesture.
    Socket emissions are returned as values instead of being sent. */
module CarromGame {
  import opened Wrappers
  import opened Geometry
  import opened Bodies
  import opened GameUtils
  import opened GameStateManager
  import opened ScoreManager

  // ---------------------------------------------------------------------
  // Perspective of the opponent

  /** The board dimensions the trajectory handler hardcodes. */
  const RemoteBoardSize: real := 500.0
  const RemoteOffsetX: real := (800.0 - RemoteBoardSize) / 2.0
  const RemoteOffsetY: real := 50.0
  const RemoteCenter: Vec := Vec(RemoteOffsetX + RemoteBoardSize / 2.0, RemoteOffsetY + RemoteBoardSize / 2.0)

  /** `transformCoordinate`: half a turn about the board centre (400, 300);
      a missing point stays missing. */
  function TransformCoordinate(c: Option<Vec>): (r: Option<Vec>)
    ensures r.None? <==> c.None?
    ensures c.Some? ==> r.value.x + c.value.x == 800.0 && r.value.y + c.value.y == 600.0
  {
    match c
    case None => None
    case Some(p) => Some(Reflect(p, RemoteCenter))
  }

  /** Mirroring twice gives the original point back. */
  lemma TransformInvolution(c: Option<Vec>)
    ensures TransformCoordinate(TransformCoordinate(c)) == c
  {
    if c.Some? {
      ReflectInvolution(c.value, RemoteCenter);
    }
  }

  /** The board centre, and nothing else, is its own mirror image. */
  lemma TransformFixesOnlyCentre(p: Vec)
    ensures TransformCoordinate(Some(p)) == Some(p) <==> p == Vec(400.0, 300.0)
  {
    ReflectFixedPoint(p, RemoteCenter);
  }

  /** The hardcoded centre is the centre of the board the game builds, so the
      opponent's striker on the bottom line is seen on the top line at the same
      slider fraction. */
  lemma OpponentBottomSeenOnTop(p: real)
    ensures TransformCoordinate(Some(StrikerPositionOnLine(p, Bottom, GameBoard)))
            == Some(StrikerPositionOnLine(p, Top, GameBoard))
  {
    assert RemoteCenter == GameBoard.Center();
    TopIsReflectedBottom(p, GameBoard);
  }

  // ---------------------------------------------------------------------
  // Aim preview sent to and received from the opponent

  /** The `drawTrajectory` payload; `selectedStriker` is the striker's
      position, or `None` for `null`. */
  datatype TrajectoryMsg = TrajectoryMsg(isDragging: bool, dragStart: Option<Vec>,
                                         dragCurrent: Option<Vec>, selectedStriker: Option<Vec>)

  /** The payload sent when a gesture ends. */
  const EndOfGesture: TrajectoryMsg := TrajectoryMsg(false, None, None, None)

  /** `q` is `p` seen from the other side of the board: both missing, or
      both present with (400, 300) as their midpoint. */
  predicate MirrorOf(q: Option<Vec>, p: Option<Vec>)
  {
    (q.None? <==> p.None?)
    && (p.Some? && q.Some? ==> q.value.x + p.value.x == 800.0 && q.value.y + p.value.y == 600.0)
  }

  /** What the `drawTrajectory` handler stores as the remote trajectory: the
      flag as received, every point mirrored. */
  function ReceiveTrajectory(m: TrajectoryMsg): (r: TrajectoryMsg)
    ensures r.isDragging == m.isDragging
    ensures MirrorOf(r.dragStart, m.dragStart)
    ensures MirrorOf(r.dragCurrent, m.dragCurrent)
    ensures MirrorOf(r.selectedStriker, m.selectedStriker)
  {
    TrajectoryMsg(m.isDragging, TransformCoordinate(m.dragStart),
                  TransformCoordinate(m.dragCurrent), TransformCoordinate(m.selectedStriker))
  }

  /** Receiving a message twice over undoes the mirroring. */
  lemma ReceiveTrajectoryInvolution(m: TrajectoryMsg)
    ensures ReceiveTrajectory(ReceiveTrajectory(m)) == m
  {
    TransformInvolution(m.dragStart);
    TransformInvolution(m.dragCurrent);
    TransformInvolution(m.selectedStriker);
  }

  /** What the render loop draws for the opponent: both drag points and the
      striker position, which defaults to the origin. */
  datatype Preview = Preview(start: Vec, current: Vec, striker: Vec)

  function RemotePreview(remote: Option<TrajectoryMsg>): (r: Option<Preview>)
    ensures r.Some? <==> remote.Some? && remote.value.isDragging
                         && remote.value.dragStart.Some? && remote.value.dragCurrent.Some?
    ensures r.Some? ==> r.value.start == remote.value.dragStart.value
                        && r.value.current == remote.value.dragCurrent.value
    ensures r.Some? && remote.value.selectedStriker.Some? ==> r.value.striker == remote.value.selectedStriker.value
    ensures r.Some? && remote.value.selectedStriker.None? ==> r.value.striker == Zero
  {
    match remote
    case None => None
    case Some(t) =>
      if t.isDragging && t.dragStart.Some? && t.dragCurrent.Some? then
        Some(Preview(t.dragStart.value, t.dragCurrent.value,
                     match t.selectedStriker case Some(p) => p case None => Zero))
      else None
  }

  /** Once the end-of-gesture message arrives, the opponent's preview is gone. */
  lemma EndOfGestureClearsPreview()
    ensures RemotePreview(Some(ReceiveTrajectory(EndOfGesture))) == None
  {
  }

  // ---------------------------------------------------------------------
  // Pockets

  /** The body a collision pair pockets: exactly one of the two must be a
      pocket, and the other one is the pocketed body. */
  function ClassifyPair(a: nat, b: nat, pockets: set<nat>): (r: Option<nat>)
    ensures r.Some? <==> (a in pockets) != (b in pockets)
    ensures r.Some? ==> r.value !in pockets && (r.value == a || r.value == b)
  {
    if (a in pockets && b !in pockets) || (b in pockets && a !in pockets) then
      Some(if a in pockets then b else a)
    else None
  }

  /** The tracking-array filter run when a pocketed body is removed. */
  function RemoveBody(coins: seq<CoinObj>, body: nat): (r: seq<CoinObj>)
    ensures |r| <= |coins|
    ensures forall c :: c in r <==> c in coins && c.body.id != body
    ensures (forall i :: 0 <= i < |coins| ==> coins[i].body.id != body) ==> r == coins
    ensures (exists i :: 0 <= i < |coins| && coins[i].body.id == body) ==> |r| < |coins|
    decreases |coins|
  {
    if |coins| == 0 then []
    else if coins[0].body.id == body then RemoveBody(coins[1..], body)
    else [coins[0]] + RemoveBody(coins[1..], body)
  }

  /** Removal keeps the order of what remains: filtering a list is filtering
      each of its parts. */
  lemma {:induction false} RemoveBodyKeepsOrder(a: seq<CoinObj>, b: seq<CoinObj>, body: nat)
    ensures RemoveBody(a + b, body) == RemoveBody(a, body) + RemoveBody(b, body)
    decreases |a|
  {
    if |a| == 0 {
      assert a + b == b;
    } else {
      assert (a + b)[1..] == a[1..] + b;
      RemoveBodyKeepsOrder(a[1..], b, body);
    }
  }

  /** The `onCoinPocketed` callback: a coloured coin or the queen scores for
      the credited player; a pocketed striker scores nothing. */
  function OnCoinPocketed(g: GameScore, kind: CoinType, isPlayer1: bool): (r: GameScore)
    ensures kind == Striker ==> r == g
    ensures kind != Striker ==>
              && ScoreOf(r, PlayerFor(isPlayer1)).total == ScoreOf(g, PlayerFor(isPlayer1)).total + PointsForCoin(kind)
              && ScoreOf(r, Other(PlayerFor(isPlayer1))) == ScoreOf(g, Other(PlayerFor(isPlayer1)))
  {
    if kind == Striker then g else AddPoints(g, kind, isPlayer1).score
  }

  /** The effect of one pair of a `collisionStart` event: the score after the
      pocket is reported, and the body whose removal is scheduled. */
  datatype PocketStep = PocketStep(score: GameScore, removal: Option<nat>)

  function OnCollisionPair(a: nat, b: nat, pockets: set<nat>, coins: seq<CoinObj>,
                           g: GameScore, isPlayer1: bool): (r: PocketStep)
    ensures ClassifyPair(a, b, pockets).None? ==> r == PocketStep(g, None)
    ensures r.removal == ClassifyPair(a, b, pockets)
    ensures r.removal.Some? ==> r.removal.value !in pockets && (r.removal.value == a || r.removal.value == b)
    ensures r.removal.Some? && HandleCoinPocketed(r.removal.value, coins).Some? ==>
              r.score == OnCoinPocketed(g, HandleCoinPocketed(r.removal.value, coins).value, isPlayer1)
    ensures r.removal.Some? && HandleCoinPocketed(r.removal.value, coins).None? ==> r.score == g
  {
    match ClassifyPair(a, b, pockets)
    case None => PocketStep(g, None)
    case Some(body) =>
      match HandleCoinPocketed(body, coins)
      case None => PocketStep(g, Some(body))
      case Some(kind) => PocketStep(OnCoinPocketed(g, kind, isPlayer1), Some(body))
  }

  // ---------------------------------------------------------------------
  // The aiming gesture

  /** The drag refs: whether aiming, the striker picked up, and both drag points. */
  datatype DragState = DragState(isDragging: bool, selected: Option<Body>,
                                 dragStart: Option<Vec>, dragCurrent: Option<Vec>)

  const Idle: DragState := DragState(false, None, None, None)

  /** The payload that tells the opponent about a drag state. */
  function MessageOf(d: DragState): TrajectoryMsg
  {
    TrajectoryMsg(d.isDragging, d.dragStart, d.dragCurrent,
                  match d.selected case Some(b) => Some(b.position) case None => None)
  }

  datatype GestureStep = GestureStep(drag: DragState, emitted: Option<TrajectoryMsg>)

  /** `handleMouseDown` at canvas point (x, y): a striker under the pointer
      starts a drag of zero length. */
  function MouseDown(d: DragState, x: real, y: real, coins: seq<CoinObj>): (r: GestureStep)
    ensures FindStrikerAtPosition(x, y, coins).None? ==> r == GestureStep(d, None)
    ensures FindStrikerAtPosition(x, y, coins).Some? ==>
              && r.drag.isDragging && r.drag.selected.Some?
              && r.drag.dragStart == r.drag.dragCurrent == Some(Vec(x, y))
              && r.emitted == Some(MessageOf(r.drag))
    ensures r.drag.selected.Some? && r.drag != d ==>
              exists i :: 0 <= i < |coins| && coins[i].body == r.drag.selected.value && StrikerUnder(coins[i], Vec(x, y))
  {
    match FindStrikerAtPosition(x, y, coins)
    case None => GestureStep(d, None)
    case Some(s) =>
      var d' := DragState(true, Some(s.body), Some(Vec(x, y)), Some(Vec(x, y)));
      GestureStep(d', Some(TrajectoryMsg(true, Some(Vec(x, y)), Some(Vec(x, y)), Some(s.body.position))))
  }

  /** `handleMouseMove` / `handleGlobalMouseMove`: while a striker is held,
      the current drag point follows the pointer. */
  function MouseMove(d: DragState, x: real, y: real): (r: GestureStep)
    ensures !d.isDragging || d.selected.None? ==> r == GestureStep(d, None)
    ensures d.isDragging && d.selected.Some? ==>
              && r.drag == d.(dragCurrent := Some(Vec(x, y)))
              && r.emitted == Some(MessageOf(r.drag))
  {
    if !d.isDragging || d.selected.None? then GestureStep(d, None)
    else
      GestureStep(d.(dragCurrent := Some(Vec(x, y))),
                  Some(TrajectoryMsg(true, d.dragStart, Some(Vec(x, y)), Some(d.selected.value.position))))
  }

  /** All of the drag state a mouse-up needs to shoot. */
  predicate ReadyToShoot(d: DragState)
  {
    d.isDragging && d.selected.Some? && d.dragStart.Some? && d.dragCurrent.Some?
  }

  function DragVector(d: DragState): Vec
    requires ReadyToShoot(d)
  {
    Vec(d.dragCurrent.value.x - d.dragStart.value.x, d.dragCurrent.value.y - d.dragStart.value.y)
  }

  /** A shot: the body that receives the velocity, and the velocity. */
  datatype Shot = Shot(striker: nat, velocity: Vec)

  datatype ReleaseStep = ReleaseStep(drag: DragState, shot: Option<Shot>, emitted: Option<TrajectoryMsg>)

  /** `handleGlobalMouseUp`. `distance` is the value the source computes as
      `Math.sqrt(dx*dx + dy*dy) * 6`. Without a complete drag nothing happens;
      otherwise the striker is shot when the drag leaves the dead zone, the
      drag state is cleared, and the end of the gesture is announced. */
  function MouseUp(d: DragState, distance: real): (r: ReleaseStep)
    requires ReadyToShoot(d) ==> distance >= 0.0 && distance * distance == 36.0 * SqNorm(DragVector(d))
    ensures !ReadyToShoot(d) ==> r == ReleaseStep(d, None, None)
    ensures ReadyToShoot(d) ==>
              && r.drag == Idle
              && r.emitted == Some(EndOfGesture) && MessageOf(r.drag) == EndOfGesture
              && (r.shot.Some? <==> 36.0 * SqNorm(DragVector(d)) > DeadZone * DeadZone)
              && (r.shot.Some? ==> r.shot.value == Shot(d.selected.value.id,
                    CalculateStrikerVelocity(DragVector(d).x, DragVector(d).y, distance)))
  {
    if !ReadyToShoot(d) then ReleaseStep(d, None, None)
    else
      var v := DragVector(d);
      var velocity := CalculateStrikerVelocity(v.x, v.y, distance);
      DeadZoneIsDragLength(v, distance);
      var shot := if velocity.x != 0.0 || velocity.y != 0.0 then Some(Shot(d.selected.value.id, velocity)) else None;
      ReleaseStep(Idle, shot, Some(EndOfGesture))
  }

  /** The velocity is non-zero exactly when six times the pointer
      displacement exceeds the dead zone. */
  lemma DeadZoneIsDragLength(v: Vec, distance: real)
    requires distance >= 0.0 && distance * distance == 36.0 * SqNorm(v)
    ensures var w := CalculateStrikerVelocity(v.x, v.y, distance);
            (w.x != 0.0 || w.y != 0.0) <==> 36.0 * SqNorm(v) > DeadZone * DeadZone
  {
    SquareMonotone(DeadZone, distance);
    if distance > DeadZone {
      assert v.x != 0.0 || v.y != 0.0;
    }
  }
}

=== FILE: game_state_manager.dfy ===
/** The stop detector, pocket reporting and striker reset behind
    `useGameStateManager`. The detector's two refs become an explicit state
    record and the clock (`Date.now()`) becomes a parameter. */
module GameStateManager {
  import opened Wrappers
  import opened Geometry
  import opened Bodies
  import opened Physics
  import opened GameUtils

  /** Minimum time, in milliseconds, between two accepted checks. */
  const ThrottleMs: int := 100

  /** `lastStoppedCheckRef` and `hasStoppedRef`. */
  datatype StopDetector = StopDetector(lastCheck: int, hasStopped: bool)

  const InitialDetector: StopDetector := StopDetector(0, false)

  /** The detector's own test, `speed < threshold`: strict, unlike
      `IsBodyMoving`. No speed is below a threshold of zero or less. */
  predicate BelowThreshold(v: Vec, threshold: real)
  {
    threshold > 0.0 && SqNorm(v) < threshold * threshold
  }

  lemma BelowIffSlower(v: Vec, threshold: real, speed: real)
    requires speed >= 0.0 && speed * speed == SqNorm(v)
    ensures BelowThreshold(v, threshold) <==> speed < threshold
  {
    if threshold > 0.0 {
      SquareMonotone(speed, threshold);
    }
  }

  /** `coins.every(...)` in `checkAllStopped`. */
  function AllBelow(coins: seq<CoinObj>, threshold: real): (r: bool)
    ensures r <==> forall i :: 0 <= i < |coins| ==> BelowThreshold(coins[i].body.velocity, threshold)
    decreases |coins|
  {
    |coins| == 0 || (BelowThreshold(coins[0].body.velocity, threshold) && AllBelow(coins[1..], threshold))
  }

  /** A coin moving at exactly the threshold speed is stopped for
      `areAllBodiesStopped` but still moving for the detector. */
  lemma ThresholdSpeedDisagrees(b: Body, threshold: real)
    requires threshold > 0.0 && SqNorm(b.velocity) == threshold * threshold
    ensures !IsBodyMoving(b, threshold) && !BelowThreshold(b.velocity, threshold)
  {
  }

  /** Whatever the detector calls stopped, `areAllBodiesStopped` does too. */
  lemma {:induction false} DetectorStopImpliesStopped(coins: seq<CoinObj>, threshold: real)
    requires AllBelow(coins, threshold)
    ensures AreAllBodiesStopped(BodiesOf(coins), threshold)
  {
    var bs := BodiesOf(coins);
    forall i | 0 <= i < |bs|
      ensures !IsBodyMoving(bs[i], threshold)
    {
      assert BelowThreshold(coins[i].body.velocity, threshold);
    }
  }

  function BodiesOf(coins: seq<CoinObj>): (r: seq<Body>)
    ensures |r| == |coins| && forall i :: 0 <= i < |r| ==> r[i] == coins[i].body
  {
    seq(|coins|, i requires 0 <= i < |coins| => coins[i].body)
  }

  /** What one call of `checkAllStopped` leaves behind: the new detector
      state, the value returned, and whether `onAllStopped` fired. */
  datatype Check = Check(detector: StopDetector, result: bool, fired: bool)

  /** `checkAllStopped(coins)` at time `now`. */
  function CheckAllStopped(d: StopDetector, now: int, coins: seq<CoinObj>, threshold: real): (r: Check)
    ensures now - d.lastCheck < ThrottleMs ==> r == Check(d, false, false)
    ensures now - d.lastCheck >= ThrottleMs ==>
              && r.detector.lastCheck == now
              && (r.result <==> forall i :: 0 <= i < |coins| ==> BelowThreshold(coins[i].body.velocity, threshold))
              && r.detector.hasStopped == r.result
              && (r.fired <==> r.result && !d.hasStopped)
  {
    if now - d.lastCheck < ThrottleMs then Check(d, false, false)
    else
      var d' := d.(lastCheck := now);
      var allStopped := AllBelow(coins, threshold);
      if allStopped && !d'.hasStopped then Check(d'.(hasStopped := true), true, true)
      else if !allStopped then Check(d'.(hasStopped := false), allStopped, false)
      else Check(d', allStopped, false)
  }

  /** One poll of the detector: the time and the coins it sees. */
  datatype Poll = Poll(now: int, coins: seq<CoinObj>)

  /** Runs the polls in order; returns the final state and how often
      `onAllStopped` fired. */
  function RunPolls(d: StopDetector, polls: seq<Poll>, threshold: real): (StopDetector, nat)
    decreases |polls|
  {
    if |polls| == 0 then (d, 0)
    else
      var c := CheckAllStopped(d, polls[0].now, polls[0].coins, threshold);
      var (d', n) := RunPolls(c.detector, polls[1..], threshold);
      (d', n + if c.fired then 1 else 0)
  }

  /** While every poll sees all coins below the threshold, `onAllStopped`
      fires at most once, and not at all when the latch was already set. */
  lemma {:induction false} FiresOncePerStop(d: StopDetector, polls: seq<Poll>, threshold: real)
    requires forall i :: 0 <= i < |polls| ==> AllBelow(polls[i].coins, threshold)
    ensures RunPolls(d, polls, threshold).1 <= 1
    ensures d.hasStopped ==> RunPolls(d, polls, threshold).1 == 0 && RunPolls(d, polls, threshold).0.hasStopped
    decreases |polls|
  {
    if |polls| > 0 {
      var c := CheckAllStopped(d, polls[0].now, polls[0].coins, threshold);
      assert c.detector.hasStopped == (d.hasStopped || c.fired);
      FiresOncePerStop(c.detector, polls[1..], threshold);
    }
  }

  /** From the detector's initial state, with the default threshold: once
      the coins stop, the first accepted poll fires `onAllStopped`, and no
      later poll of the same stop fires it again. */
  lemma {:induction false} FirstStopFiresOnce(polls: seq<Poll>)
    requires |polls| > 0 && polls[0].now >= ThrottleMs
    requires forall i :: 0 <= i < |polls| ==> AllBelow(polls[i].coins, DefaultThreshold)
    ensures RunPolls(InitialDetector, polls, DefaultThreshold).1 == 1
  {
    var c := CheckAllStopped(InitialDetector, polls[0].now, polls[0].coins, DefaultThreshold);
    assert c.fired && c.detector.hasStopped;
    FiresOncePerStop(c.detector, polls[1..], DefaultThreshold);
  }

  /** `handleCoinPocketed(body, coins)`: the type of the first tracked coin
      with that body, which `onCoinPocketed` receives; nothing for a body
      that is not tracked. */
  function HandleCoinPocketed(body: nat, coins: seq<CoinObj>): (r: Option<CoinType>)
    ensures r.None? <==> forall i :: 0 <= i < |coins| ==> coins[i].body.id != body
    ensures r.Some? ==> exists i :: 0 <= i < |coins| && coins[i].body.id == body && coins[i].kind == r.value
                           && forall j :: 0 <= j < i ==> coins[j].body.id != body
  {
    match FirstIndex(coins, (c: CoinObj) => c.body.id == body)
    case None => None
    case Some(i) => Some(coins[i].kind)
  }

  /** Where `resetStriker` puts the striker: on the bottom threshold line, at
      `strikerPosition` percent of a span that starts 30 pixels past the left
      threshold line. */
  function ResetPosition(g: Board, strikerPosition: real): Vec
  {
    var thresholdOffset := 60.0;
    var usableLength := g.size - g.ox - thresholdOffset;
    var position := strikerPosition / 100.0;
    Vec(g.ox + g.ox / 2.0 + thresholdOffset / 2.0 + position * usableLength,
        g.oy + g.size - g.oy / 2.0)
  }

  /** Board geometry counts as missing when absent or when its x offset is 0,
      which the source's truthiness test also rejects. */
  predicate GeometryReady(objects: Option<Board>)
  {
    objects.Some? && objects.value.ox != 0.0
  }

  /** `resetStriker(coins, gameObjects, strikerPosition)`: the first striker
      is put back at rest on the bottom threshold line; no striker or no
      geometry changes nothing. */
  function ResetStriker(coins: seq<CoinObj>, objects: Option<Board>, strikerPosition: real): (r: seq<CoinObj>)
    ensures FirstStriker(coins).None? || !GeometryReady(objects) ==> r == coins
    ensures FirstStriker(coins).Some? && GeometryReady(objects) ==>
              var i := FirstStriker(coins).value;
              && |r| == |coins|
              && r[i].kind == Striker && r[i].body.id == coins[i].body.id
              && r[i].body.velocity == Zero && r[i].body.angularVelocity == 0.0
              && r[i].body.position == ResetPosition(objects.value, strikerPosition)
              && r[i].body.position.y == LineCoordinate(Bottom, objects.value)
              && r[i].body.mass == coins[i].body.mass
              && (forall j :: 0 <= j < |coins| && j != i ==> r[j] == coins[j])
  {
    match FirstStriker(coins)
    case None => coins
    case Some(i) =>
      if !GeometryReady(objects) then coins
      else
        var b := coins[i].body;
        SetBody(coins, i, b.(position := ResetPosition(objects.value, strikerPosition),
                             velocity := Zero, angularVelocity := 0.0))
  }

  /** For a slider value in (0, 100] on a board whose offsets leave room, the
      reset position is one `isOnThresholdLine` reports as on the bottom line,
      unmoved. */
  lemma ResetLandsOnBottomThreshold(g: Board, strikerPosition: real)
    requires 0.0 < strikerPosition <= 100.0
    requires g.ox > 0.0 && g.oy >= 0.0 && g.size > g.ox + 60.0 && g.size - g.oy >= Tolerance
    ensures var p := ResetPosition(g, strikerPosition);
            IsOnThresholdLine(p.x, p.y, g) == Some(LineHit(Bottom, p))
  {
    var p := ResetPosition(g, strikerPosition);
    ResetNearBottomOnly(g, strikerPosition);
    var r := IsOnThresholdLine(p.x, p.y, g);
    assert r.Some?;
  }

  lemma ResetNearBottomOnly(g: Board, strikerPosition: real)
    requires 0.0 < strikerPosition <= 100.0
    requires g.ox > 0.0 && g.oy >= 0.0 && g.size > g.ox + 60.0 && g.size - g.oy >= Tolerance
    ensures var p := ResetPosition(g, strikerPosition);
            && NearLine(Bottom, p.x, p.y, g) && !NearLine(Top, p.x, p.y, g)
            && !NearLine(Left, p.x, p.y, g) && !NearLine(Right, p.x, p.y, g)
  {
    var f := strikerPosition / 100.0;
    var u := g.size - g.ox - 60.0;
    var along := f * u;
    assert 0.0 < along <= u by {
      assert f * u <= 1.0 * u;
      assert f * u > 0.0 * u;
    }
    assert ResetPosition(g, strikerPosition).x == g.ox + g.ox / 2.0 + 30.0 + along;
  }
}

=== FILE: game_utils.dfy ===
/** Board geometry helpers: the four striker baselines, the threshold-line
    hit test, picking up the striker and turning a drag into a shot. */
module GameUtils {
  import opened Wrappers
  import opened Geometry
  import opened Bodies

  datatype Side = Bottom | Top | Left | Right

  /** `getStrikerPositionOnLine`: the point at fraction `position` along the
      baseline of `side`, leaving a 130-pixel margin at both ends. */
  function StrikerPositionOnLine(position: real, side: Side, g: Board): (r: Vec)
    ensures 0.0 <= position <= 1.0 && g.size >= 260.0 ==> OnBaseline(r, side, g)
  {
    var usableLength := g.size - 260.0;
    var along := position * usableLength;
    assert 0.0 <= position <= 1.0 && usableLength >= 0.0 ==> 0.0 <= along <= usableLength by {
      if 0.0 <= position <= 1.0 && usableLength >= 0.0 {
        assert position * usableLength <= 1.0 * usableLength;
      }
    }
    match side
    case Bottom => Vec(g.ox + 130.0 + along, g.oy + g.size - 80.0)
    case Top => Vec(g.ox + 130.0 + usableLength + position * -1.0 * usableLength, g.oy + 100.0 - 20.0)
    case Left => Vec(g.ox + 100.0, g.oy + 130.0 + along)
    case Right => Vec(g.ox + g.size - 100.0, g.oy + 130.0 + along)
  }

  /** The segment each baseline occupies: bottom and top 80 pixels in from
      their edges, left and right 100 pixels in, each 130 pixels short of the
      corners. */
  predicate OnBaseline(p: Vec, side: Side, g: Board)
  {
    match side
    case Bottom => p.y == g.oy + g.size - 80.0 && g.ox + 130.0 <= p.x <= g.ox + g.size - 130.0
    case Top => p.y == g.oy + 80.0 && g.ox + 130.0 <= p.x <= g.ox + g.size - 130.0
    case Left => p.x == g.ox + 100.0 && g.oy + 130.0 <= p.y <= g.oy + g.size - 130.0
    case Right => p.x == g.ox + g.size - 100.0 && g.oy + 130.0 <= p.y <= g.oy + g.size - 130.0
  }

  /** The top line runs the other way: fraction `p` on top lies above fraction
      `1 - p` on the bottom. */
  lemma TopRunsReversed(p: real, g: Board)
    ensures StrikerPositionOnLine(p, Top, g).x == StrikerPositionOnLine(1.0 - p, Bottom, g).x
  {
    var u := g.size - 260.0;
    assert p * -1.0 * u == -(p * u);
    assert (1.0 - p) * u == u - p * u;
  }

  /** The top line is the bottom line turned half a turn about the board
      centre, fraction for fraction: what the opponent sees of a striker. */
  lemma TopIsReflectedBottom(p: real, g: Board)
    ensures StrikerPositionOnLine(p, Top, g) == Reflect(StrikerPositionOnLine(p, Bottom, g), g.Center())
  {
    var u := g.size - 260.0;
    assert p * -1.0 * u == -(p * u);
  }

  /** A larger fraction lies further right on the bottom line. */
  lemma BottomRunsRight(p: real, q: real, g: Board)
    requires p < q && g.size > 260.0
    ensures StrikerPositionOnLine(p, Bottom, g).x < StrikerPositionOnLine(q, Bottom, g).x
  {
    var u := g.size - 260.0;
    assert q * u - p * u == (q - p) * u;
    assert (q - p) * u > 0.0 * u;
  }

  /** The slider drives the striker: fraction 0 and fraction 1 are the two
      ends of each baseline, and a larger fraction lies further right on the
      bottom line, further left on the top line, and further down on the
      left and right lines. */
  lemma {:induction false} SliderMovesStriker(p: real, q: real, g: Board)
    requires g.size > 260.0
    ensures StrikerPositionOnLine(0.0, Bottom, g).x == g.ox + 130.0
    ensures StrikerPositionOnLine(1.0, Bottom, g).x == g.ox + g.size - 130.0
    ensures StrikerPositionOnLine(0.0, Top, g).x == g.ox + g.size - 130.0
    ensures StrikerPositionOnLine(1.0, Top, g).x == g.ox + 130.0
    ensures StrikerPositionOnLine(0.0, Left, g).y == StrikerPositionOnLine(0.0, Right, g).y == g.oy + 130.0
    ensures StrikerPositionOnLine(1.0, Left, g).y == StrikerPositionOnLine(1.0, Right, g).y == g.oy + g.size - 130.0
    ensures p < q ==> StrikerPositionOnLine(p, Bottom, g).x < StrikerPositionOnLine(q, Bottom, g).x
    ensures p < q ==> StrikerPositionOnLine(p, Top, g).x > StrikerPositionOnLine(q, Top, g).x
    ensures p < q ==> StrikerPositionOnLine(p, Left, g).y < StrikerPositionOnLine(q, Left, g).y
    ensures p < q ==> StrikerPositionOnLine(p, Right, g).y < StrikerPositionOnLine(q, Right, g).y
  {
    var u := g.size - 260.0;
    assert p * -1.0 * u == -(p * u);
    assert q * -1.0 * u == -(q * u);
    if p < q {
      BottomRunsRight(p, q, g);
    }
  }

  /** The right line mirrors the left line across the vertical centre line. */
  lemma RightMirrorsLeft(p: real, g: Board)
    ensures var l, r := StrikerPositionOnLine(p, Left, g), StrikerPositionOnLine(p, Right, g);
            r.y == l.y && r.x - g.Center().x == g.Center().x - l.x
  {
  }

  /** `isOnThresholdLine` result: which line was hit and the point snapped onto it. */
  datatype LineHit = LineHit(side: Side, point: Vec)

  const ThresholdOffset: real := 60.0
  const Tolerance: real := 30.0

  /** The fixed coordinate of each threshold line: x for left and right, y for
      top and bottom. The lines sit half an offset in from the board edge. */
  function LineCoordinate(side: Side, g: Board): real
  {
    match side
    case Left => g.ox + g.ox / 2.0
    case Right => g.ox + g.size - g.ox / 2.0
    case Top => g.oy + g.oy / 2.0
    case Bottom => g.oy + g.size - g.oy / 2.0
  }

  /** A point counts as on a line when it is strictly within the tolerance of
      the line's coordinate and strictly inside the line's span. */
  predicate NearLine(side: Side, x: real, y: real, g: Board)
  {
    if side == Left || side == Right then
      Abs(x - LineCoordinate(side, g)) < Tolerance
      && g.oy + g.oy / 2.0 + ThresholdOffset / 2.0 < y < g.oy + g.size - g.oy / 2.0
    else
      Abs(y - LineCoordinate(side, g)) < Tolerance
      && g.ox + g.ox / 2.0 + ThresholdOffset / 2.0 < x < g.ox + g.size - g.ox / 2.0
  }

  /** The order in which the lines are tried. */
  function Rank(side: Side): nat
  {
    match side
    case Left => 0
    case Right => 1
    case Top => 2
    case Bottom => 3
  }

  /** `isOnThresholdLine`: the first of left, right, top and bottom that the
      point is near, with the point moved onto that line; `None` when it is
      near none of them. */
  function IsOnThresholdLine(x: real, y: real, g: Board): (r: Option<LineHit>)
    ensures r.None? <==> forall s: Side :: !NearLine(s, x, y, g)
    ensures r.Some? ==> NearLine(r.value.side, x, y, g)
    ensures r.Some? ==> forall s: Side :: Rank(s) < Rank(r.value.side) ==> !NearLine(s, x, y, g)
    ensures r.Some? && (r.value.side == Left || r.value.side == Right) ==>
              r.value.point == Vec(LineCoordinate(r.value.side, g), y)
    ensures r.Some? && (r.value.side == Top || r.value.side == Bottom) ==>
              r.value.point == Vec(x, LineCoordinate(r.value.side, g))
  {
    var leftLineX := g.ox + g.ox / 2.0;
    var rightLineX := g.ox + g.size - g.ox / 2.0;
    var topLineY := g.oy + g.oy / 2.0;
    var bottomLineY := g.oy + g.size - g.oy / 2.0;
    if Abs(x - leftLineX) < Tolerance
       && y > g.oy + g.oy / 2.0 + ThresholdOffset / 2.0 && y < g.oy + g.size - g.oy / 2.0 then
      assert NearLine(Left, x, y, g);
      Some(LineHit(Left, Vec(leftLineX, y)))
    else if Abs(x - rightLineX) < Tolerance
       && y > g.oy + g.oy / 2.0 + ThresholdOffset / 2.0 && y < g.oy + g.size - g.oy / 2.0 then
      assert NearLine(Right, x, y, g);
      Some(LineHit(Right, Vec(rightLineX, y)))
    else if Abs(y - topLineY) < Tolerance
       && x > g.ox + g.ox / 2.0 + ThresholdOffset / 2.0 && x < g.ox + g.size - g.ox / 2.0 then
      assert NearLine(Top, x, y, g);
      Some(LineHit(Top, Vec(x, topLineY)))
    else if Abs(y - bottomLineY) < Tolerance
       && x > g.ox + g.ox / 2.0 + ThresholdOffset / 2.0 && x < g.ox + g.size - g.ox / 2.0 then
      assert NearLine(Bottom, x, y, g);
      Some(LineHit(Bottom, Vec(x, bottomLineY)))
    else
      None
  }

  /** Snapping moves the point by less than the tolerance, along one axis only. */
  lemma SnapIsSmall(x: real, y: real, g: Board)
    requires IsOnThresholdLine(x, y, g).Some?
    ensures var q := IsOnThresholdLine(x, y, g).value.point;
            (q.x == x && Abs(q.y - y) < Tolerance) || (q.y == y && Abs(q.x - x) < Tolerance)
  {
  }

  /** Radius within which a click picks up the striker: 15 for the striker
      plus 5 of tolerance. */
  const PickRadius: real := 20.0

  /** The striker lies within `PickRadius` of the point, by squared distance. */
  predicate StrikerUnder(c: CoinObj, p: Vec)
  {
    c.kind == Striker && SqDist(c.body.position, p) <= PickRadius * PickRadius
  }

  /** The squared test agrees with the source's test on the distance itself. */
  lemma StrikerUnderIffClose(c: CoinObj, p: Vec, distance: real)
    requires distance >= 0.0 && distance * distance == SqDist(c.body.position, p)
    ensures StrikerUnder(c, p) <==> c.kind == Striker && distance <= PickRadius
  {
    SquareMonotone(PickRadius, distance);
  }

  /** `findStrikerAtPosition`: the first coin in list order that is a
      striker close enough to the point. */
  function FindStrikerAtPosition(x: real, y: real, coins: seq<CoinObj>): (r: Option<CoinObj>)
    ensures r.None? <==> forall i :: 0 <= i < |coins| ==> !StrikerUnder(coins[i], Vec(x, y))
    ensures r.Some? ==> r.value.kind == Striker && SqDist(r.value.body.position, Vec(x, y)) <= 400.0
    ensures r.Some? ==> exists i :: 0 <= i < |coins| && coins[i] == r.value
                           && forall j :: 0 <= j < i ==> !StrikerUnder(coins[j], Vec(x, y))
  {
    Find(coins, c => StrikerUnder(c, Vec(x, y)))
  }

  /** Drags no longer than this shoot nothing. */
  const DeadZone: real := 10.0
  const MaxPower: real := 100.0
  const VelocityScale: real := 4.5

  /** Shot power: a thirtieth of the drag length, capped at `MaxPower`. */
  function ShotPower(distance: real): (r: real)
    ensures r <= MaxPower && r <= distance / 30.0
    ensures r == MaxPower || r == distance / 30.0
  {
    if distance / 30.0 < MaxPower then distance / 30.0 else MaxPower
  }

  /** `calculateStrikerVelocity(dx, dy, distance)`: nothing inside the dead
      zone; otherwise a velocity pointing against the drag `(dx, dy)`. */
  function CalculateStrikerVelocity(dx: real, dy: real, distance: real): (r: Vec)
    ensures distance <= DeadZone ==> r == Zero
    ensures distance > DeadZone ==> OpposesDrag(r.x, dx) && OpposesDrag(r.y, dy)
    ensures distance > DeadZone ==> r.x * dy == r.y * dx
  {
    if distance <= DeadZone then Zero
    else
      var power := ShotPower(distance);
      var vx := -(dx / distance) * power * VelocityScale;
      var vy := -(dy / distance) * power * VelocityScale;
      ShotDirection(dx, dy, distance, power);
      Vec(vx, vy)
  }

  /** With the game's drag length (six times the pointer displacement), a shot
      leaves at three quarters of its power, so never faster than 75. */
  lemma ShotSpeed(dx: real, dy: real, distance: real)
    requires distance > DeadZone && distance * distance == 36.0 * SqNorm(Vec(dx, dy))
    ensures var s := 0.75 * ShotPower(distance);
            SqNorm(CalculateStrikerVelocity(dx, dy, distance)) == s * s
    ensures SqNorm(CalculateStrikerVelocity(dx, dy, distance)) <= 75.0 * 75.0
  {
    var power := ShotPower(distance);
    var k := power * VelocityScale / distance;
    var v := CalculateStrikerVelocity(dx, dy, distance);
    assert v == Vec(-dx * k, -dy * k);
    var n := dx * dx + dy * dy;
    var kk := k * k;
    assert SqNorm(v) == kk * n by {
      assert (-dx * k) * (-dx * k) == kk * (dx * dx);
      assert (-dy * k) * (-dy * k) == kk * (dy * dy);
    }
    var dd := distance * distance;
    assert kk * dd == (power * VelocityScale) * (power * VelocityScale);
    assert n == dd / 36.0;
    var s := 0.75 * power;
    assert kk * n == s * s;
    assert 0.0 < power <= 100.0;
    SquareMonotone(s, 75.0);
  }

  /** A velocity component has the opposite sign to the drag component, and
      is zero exactly when the drag component is. */
  predicate OpposesDrag(v: real, d: real)
  {
    (d > 0.0 ==> v < 0.0) && (d < 0.0 ==> v > 0.0) && (d == 0.0 ==> v == 0.0)
  }

  lemma ShotDirection(dx: real, dy: real, distance: real, power: real)
    requires distance > 0.0 && power > 0.0
    ensures var vx, vy := -(dx / distance) * power * VelocityScale, -(dy / distance) * power * VelocityScale;
            OpposesDrag(vx, dx) && OpposesDrag(vy, dy) && vx * dy == vy * dx
  {
    var k := power * VelocityScale / distance;
    assert k > 0.0;
    assert -(dx / distance) * power * VelocityScale == -dx * k;
    assert -(dy / distance) * power * VelocityScale == -dy * k;
    assert (-dx * k) * dy == (-dy * k) * dx;
    OppositeSign(dx, k);
    OppositeSign(dy, k);
  }

  lemma OppositeSign(d: real, k: real)
    requires k > 0.0
    ensures OpposesDrag(-d * k, d)
  {
    if d > 0.0 {
      assert d * k > 0.0;
    } else if d < 0.0 {
      assert (-d) * k > 0.0;
    }
  }
}

=== FILE: geometry.dfy ===
/** Points, vectors and board geometry shared by every part of the game.
    Coordinates are canvas pixels and are modelled as exact reals. */
module Geometry {

  /** A point or a velocity, `{ x, y }` in the source. */
  datatype Vec = Vec(x: real, y: real)

  const Zero: Vec := Vec(0.0, 0.0)

  function Abs(a: real): (r: real)
    ensures r >= 0.0
    ensures r == a || r == -a
  {
    if a < 0.0 then -a else a
  }

  /** A square is non-negative and positive away from zero. */
  lemma Square(a: real)
    ensures a * a >= 0.0
    ensures a != 0.0 ==> a * a > 0.0
  {
    if a < 0.0 {
      var b := -a;
      assert b * b > 0.0 * b;
      assert a * a == b * b;
    } else if a > 0.0 {
      assert a * a > 0.0 * a;
    }
  }

  lemma SumOfSquares(a: real, b: real)
    ensures a * a + b * b >= 0.0
    ensures a != 0.0 || b != 0.0 ==> a * a + b * b > 0.0
  {
    Square(a);
    Square(b);
  }

  /** On non-negative numbers, comparing squares compares the numbers; this is
      what lets a test on `Math.sqrt(v)` be stated on `v` itself. */
  lemma SquareMonotone(a: real, b: real)
    requires a >= 0.0 && b >= 0.0
    ensures a < b <==> a * a < b * b
  {
    // The products are named: the solver relates them more reliably so.
    var aa, ab, bb := a * a, a * b, b * b;
    if a < b {
      assert aa <= ab;
      assert ab < bb;
    } else {
      assert aa >= ab;
      assert ab >= bb;
    }
  }

  /** Squared Euclidean length; the source takes `Math.sqrt` of this. */
  function SqNorm(v: Vec): (r: real)
    ensures r >= 0.0
  {
    SumOfSquares(v.x, v.y);
    v.x * v.x + v.y * v.y
  }

  /** A number bounded below by the square of a non-zero number is positive. */
  lemma AboveSquare(s: real, a: real)
    requires s >= a * a && a != 0.0
    ensures s > 0.0
  {
    var m := Abs(a);
    SquareMonotone(0.0, m);
    assert a * a == m * m;
  }

  /** Only the zero vector has squared length zero. */
  lemma SqNormPositive(v: Vec)
    ensures v != Vec(0.0, 0.0) ==> SqNorm(v) > 0.0
  {
    Square(v.x);
    Square(v.y);
    assert SqNorm(v) >= v.x * v.x && SqNorm(v) >= v.y * v.y;
    if v.x != 0.0 {
      AboveSquare(SqNorm(v), v.x);
    } else if v.y != 0.0 {
      AboveSquare(SqNorm(v), v.y);
    }
  }

  /** Squared distance between two points. */
  function SqDist(p: Vec, q: Vec): real
  {
    SqNorm(Vec(p.x - q.x, p.y - q.y))
  }

  /** The 180-degree rotation of `p` about `c`, that is `2c - p`. */
  function Reflect(p: Vec, c: Vec): (r: Vec)
    ensures Vec((r.x + p.x) / 2.0, (r.y + p.y) / 2.0) == c
  {
    Vec(2.0 * c.x - p.x, 2.0 * c.y - p.y)
  }

  /** Reflecting twice about the same centre gives the point back. */
  lemma ReflectInvolution(p: Vec, c: Vec)
    ensures Reflect(Reflect(p, c), c) == p
  {
  }

  /** The centre is the one and only fixed point of the reflection. */
  lemma ReflectFixedPoint(p: Vec, c: Vec)
    ensures Reflect(p, c) == p <==> p == c
  {
  }

  /** The square board: top-left corner (`BOARD_OFFSET_X`, `BOARD_OFFSET_Y`)
      and side length `BOARD_SIZE`. */
  datatype Board = Board(ox: real, oy: real, size: real)
  {
    function Center(): Vec
    {
      Vec(ox + size / 2.0, oy + size / 2.0)
    }
  }

  /** The board the game builds: a 500-pixel board centred horizontally on an
      800-pixel canvas, 50 pixels from the top. */
  const CanvasWidth: real := 800.0
  const GameBoard: Board := Board((CanvasWidth - 500.0) / 2.0, 50.0, 500.0)
}

=== FILE: physics.dfy ===
/** Motion helpers of the game: moving/stopped tests, kinetic energy and
    stopping bodies. Speeds are compared through their squares, so the
    square root the game takes never appears. */
module Physics {
  import opened Geometry
  import opened Bodies

  /** The threshold every caller uses when it passes none. */
  const DefaultThreshold: real := 0.5

  /** `isBodyMoving`: the speed `sqrt(vx^2 + vy^2)` exceeds `threshold`.
      A speed is never negative, so any negative threshold is exceeded. */
  predicate IsBodyMoving(b: Body, threshold: real)
  {
    threshold < 0.0 || SqNorm(b.velocity) > threshold * threshold
  }

  /** The squared test agrees with the source's test on the speed itself,
      whatever the threshold. */
  lemma MovingIffFaster(b: Body, threshold: real, speed: real)
    requires speed >= 0.0 && speed * speed == SqNorm(b.velocity)
    ensures IsBodyMoving(b, threshold) <==> speed > threshold
  {
    if threshold >= 0.0 {
      SquareMonotone(threshold, speed);
    }
  }

  /** `areAllBodiesStopped`: no body is moving; true of an empty list. */
  function AreAllBodiesStopped(bodies: seq<Body>, threshold: real): (r: bool)
    ensures r <==> forall i :: 0 <= i < |bodies| ==> !IsBodyMoving(bodies[i], threshold)
    decreases |bodies|
  {
    |bodies| == 0 || (!IsBodyMoving(bodies[0], threshold) && AreAllBodiesStopped(bodies[1..], threshold))
  }

  /** Kinetic energy of one body, `0.5 * m * speed^2`. */
  function KineticEnergy(b: Body): (r: real)
    ensures b.mass >= 0.0 ==> r >= 0.0
    ensures b.velocity == Vec(0.0, 0.0) ==> r == 0.0
    ensures b.mass > 0.0 && b.velocity != Vec(0.0, 0.0) ==> r > 0.0
  {
    var s := SqNorm(b.velocity);
    SqNormPositive(b.velocity);
    ProductSign(b.mass, s);
    0.5 * (b.mass * s)
  }

  /** The sign of a product of a non-negative factor and a positive one. */
  lemma ProductSign(m: real, v: real)
    ensures m >= 0.0 && v >= 0.0 ==> m * v >= 0.0
    ensures m > 0.0 && v > 0.0 ==> m * v > 0.0
  {
    if m > 0.0 && v > 0.0 {
      assert m * v > 0.0 * v;
    } else if m >= 0.0 && v >= 0.0 {
      assert m * v >= 0.0 * v;
    }
  }

  /** `getTotalKineticEnergy`: the left-to-right `reduce` of the bodies'
      energies, starting from 0. */
  function TotalKineticEnergy(bodies: seq<Body>): (r: real)
    ensures |bodies| == 0 ==> r == 0.0
    ensures (forall i :: 0 <= i < |bodies| ==> bodies[i].mass >= 0.0) ==> r >= 0.0
    decreases |bodies|
  {
    if |bodies| == 0 then 0.0
    else TotalKineticEnergy(bodies[..|bodies| - 1]) + KineticEnergy(bodies[|bodies| - 1])
  }

  /** The total energy of two lists laid end to end is the sum of their totals. */
  lemma {:induction false} KineticEnergyAdditive(a: seq<Body>, b: seq<Body>)
    ensures TotalKineticEnergy(a + b) == TotalKineticEnergy(a) + TotalKineticEnergy(b)
    decreases |b|
  {
    if |b| == 0 {
      assert a + b == a;
    } else {
      var b' := b[..|b| - 1];
      assert (a + b)[..|a + b| - 1] == a + b';
      assert (a + b)[|a + b| - 1] == b[|b| - 1];
      KineticEnergyAdditive(a, b');
    }
  }

  /** When every body has mass, the total energy is zero exactly when every
      body is at rest. */
  lemma {:induction false} NoEnergyIffAtRest(bodies: seq<Body>)
    requires forall i :: 0 <= i < |bodies| ==> bodies[i].mass > 0.0
    ensures TotalKineticEnergy(bodies) == 0.0 <==> forall i :: 0 <= i < |bodies| ==> bodies[i].velocity == Zero
    decreases |bodies|
  {
    if |bodies| > 0 {
      var front, last := bodies[..|bodies| - 1], bodies[|bodies| - 1];
      NoEnergyIffAtRest(front);
      assert TotalKineticEnergy(bodies) == TotalKineticEnergy(front) + KineticEnergy(last);
      if TotalKineticEnergy(bodies) == 0.0 {
        assert TotalKineticEnergy(front) >= 0.0 && KineticEnergy(last) >= 0.0;
        assert last.velocity == Zero;
        forall i | 0 <= i < |bodies|
          ensures bodies[i].velocity == Zero
        {
          if i < |bodies| - 1 {
            assert bodies[i] == front[i];
          }
        }
      } else {
        EnergyMeansMotion(bodies);
      }
    }
  }

  /** A list that holds energy has a body that is not at rest. */
  lemma EnergyMeansMotion(bodies: seq<Body>)
    ensures TotalKineticEnergy(bodies) != 0.0 ==> exists i :: 0 <= i < |bodies| && bodies[i].velocity != Zero
  {
    if forall i :: 0 <= i < |bodies| ==> bodies[i].velocity == Zero {
      RestingBodiesHaveNoEnergy(bodies);
    }
  }

  /** `stopBody`: velocity and spin become zero; the body is otherwise untouched. */
  function StopBody(b: Body): (r: Body)
    ensures r.velocity == Zero && r.angularVelocity == 0.0
    ensures r.id == b.id && r.position == b.position && r.mass == b.mass
  {
    b.(velocity := Zero, angularVelocity := 0.0)
  }

  /** `stopAllBodies`: every body stopped, in place and in order. */
  function StopAllBodies(bodies: seq<Body>): (r: seq<Body>)
    ensures |r| == |bodies|
    ensures forall i :: 0 <= i < |r| ==> r[i].velocity == Zero && r[i].angularVelocity == 0.0
    ensures forall i :: 0 <= i < |r| ==>
              r[i].id == bodies[i].id && r[i].position == bodies[i].position && r[i].mass == bodies[i].mass
  {
    seq(|bodies|, i requires 0 <= i < |bodies| => StopBody(bodies[i]))
  }

  /** Bodies that are all at rest hold no kinetic energy, whatever their masses. */
  lemma {:induction false} RestingBodiesHaveNoEnergy(bodies: seq<Body>)
    requires forall i :: 0 <= i < |bodies| ==> bodies[i].velocity == Zero
    ensures TotalKineticEnergy(bodies) == 0.0
    decreases |bodies|
  {
    if |bodies| > 0 {
      RestingBodiesHaveNoEnergy(bodies[..|bodies| - 1]);
    }
  }

  /** Zero velocity is below every non-negative threshold. */
  lemma NothingAtRestMoves(threshold: real)
    requires threshold >= 0.0
    ensures forall b: Body :: b.velocity == Zero ==> !IsBodyMoving(b, threshold)
  {
    Square(threshold);
  }

  /** After `stopAllBodies` the list counts as stopped for every non-negative
      threshold, and it holds no kinetic energy. */
  lemma StopAllBodiesStops(bodies: seq<Body>, threshold: real)
    requires threshold >= 0.0
    ensures AreAllBodiesStopped(StopAllBodies(bodies), threshold)
    ensures TotalKineticEnergy(StopAllBodies(bodies)) == 0.0
  {
    var r := StopAllBodies(bodies);
    NothingAtRestMoves(threshold);
    forall i | 0 <= i < |r|
      ensures !IsBodyMoving(r[i], threshold)
    {
      assert r[i].velocity == Zero;
    }
    RestingBodiesHaveNoEnergy(r);
  }
}

=== FILE: score_manager.dfy ===
/** Score accounting of the two players: per-type counters, the running
    total and the win flag (the state behind `useScoreManager`). */
module ScoreManager {
  import opened Wrappers
  import opened Bodies

  /** `WIN_CONDITION`: a total of at least this many points wins. */
  const WinCondition: int := 50

  datatype Player = Player1 | Player2

  datatype PlayerScore = PlayerScore(black: nat, white: nat, queen: nat, total: int)

  datatype GameScore = GameScore(player1: PlayerScore, player2: PlayerScore,
                                 currentWinner: Option<Player>, gameWon: bool)

  const EmptyPlayer: PlayerScore := PlayerScore(0, 0, 0, 0)

  /** The state the hook starts from. */
  const InitialScore: GameScore := GameScore(EmptyPlayer, EmptyPlayer, None, false)

  /** `getPointsForCoin`; a striker falls through to the default branch. */
  function PointsForCoin(c: CoinType): nat
  {
    match c
    case Black => 10
    case White => 20
    case Queen => 50
    case Striker => 0
  }

  /** The point values the score table is built on, stated independently of
      `PointsForCoin`: a total made only of pocketed coins. */
  predicate Consistent(s: PlayerScore)
  {
    s.total == 10 * s.black + 20 * s.white + 50 * s.queen
  }

  function Other(p: Player): Player
  {
    if p == Player1 then Player2 else Player1
  }

  function ScoreOf(g: GameScore, p: Player): PlayerScore
  {
    if p == Player1 then g.player1 else g.player2
  }

  function CountOf(s: PlayerScore, c: CoinType): nat
  {
    match c
    case Black => s.black
    case White => s.white
    case Queen => s.queen
    case Striker => 0
  }

  /** The player `addPoints` credits for its `isPlayer1` argument. */
  function PlayerFor(isPlayer1: bool): Player
  {
    if isPlayer1 then Player1 else Player2
  }

  /** One more coin of type `coin` for a player, and its points on the total. */
  function Credit(s: PlayerScore, coin: CoinType): (r: PlayerScore)
    requires coin != Striker
    ensures CountOf(r, coin) == CountOf(s, coin) + 1
    ensures forall c :: c != coin ==> CountOf(r, c) == CountOf(s, c)
    ensures Consistent(s) ==> Consistent(r)
    ensures s.total < r.total
  {
    var points := PointsForCoin(coin);
    match coin
    case Black => s.(black := s.black + 1, total := s.total + points)
    case White => s.(white := s.white + 1, total := s.total + points)
    case Queen => s.(queen := s.queen + 1, total := s.total + points)
  }

  /** The game score with one player's record replaced. */
  function WithScore(g: GameScore, p: Player, s: PlayerScore): (r: GameScore)
    ensures ScoreOf(r, p) == s && ScoreOf(r, Other(p)) == ScoreOf(g, Other(p))
    ensures r.currentWinner == g.currentWinner && r.gameWon == g.gameWon
  {
    if p == Player1 then g.(player1 := s) else g.(player2 := s)
  }

  datatype AddResult = AddResult(score: GameScore, points: nat)

  /** `addPoints(coinType, isPlayer1)`: the state update it schedules and the
      value it returns. The coin type is one of black, white and queen. */
  function AddPoints(g: GameScore, coin: CoinType, isPlayer1: bool): (r: AddResult)
    requires coin != Striker
    ensures var p := PlayerFor(isPlayer1);
            && ScoreOf(r.score, p) == Credit(ScoreOf(g, p), coin)
            && ScoreOf(r.score, p).total == ScoreOf(g, p).total + r.points
            && ScoreOf(r.score, Other(p)) == ScoreOf(g, Other(p))
    ensures var t := ScoreOf(r.score, PlayerFor(isPlayer1)).total;
            && (t >= WinCondition ==> r.score.gameWon && r.score.currentWinner == Some(PlayerFor(isPlayer1)))
            && (t < WinCondition ==> r.score.gameWon == g.gameWon && r.score.currentWinner == g.currentWinner)
    ensures g.gameWon ==> r.score.gameWon
  {
    var points := PointsForCoin(coin);
    var p := PlayerFor(isPlayer1);
    var updated := Credit(ScoreOf(g, p), coin);
    var next := WithScore(g, p, updated);
    if updated.total >= WinCondition then
      AddResult(next.(currentWinner := Some(p), gameWon := true), points)
    else
      AddResult(next, points)
  }

  /** `resetScore`: both players back to zero and no winner. */
  function ResetScore(): (r: GameScore)
    ensures forall p, c :: CountOf(ScoreOf(r, p), c) == 0 && ScoreOf(r, p).total == 0
    ensures !r.gameWon && r.currentWinner == None
  {
    InitialScore
  }

  /** The calls a game makes on the score. */
  datatype ScoreCall = Add(coin: CoinType, isPlayer1: bool) | Reset

  predicate ValidCalls(calls: seq<ScoreCall>)
  {
    forall i :: 0 <= i < |calls| ==> calls[i].Add? ==> calls[i].coin != Striker
  }

  /** The score after making `calls` in order from the initial state. */
  function Replay(calls: seq<ScoreCall>): GameScore
    requires ValidCalls(calls)
    decreases |calls|
  {
    if |calls| == 0 then InitialScore
    else
      var g := Replay(calls[..|calls| - 1]);
      match calls[|calls| - 1]
      case Reset => ResetScore()
      case Add(c, p1) => AddPoints(g, c, p1).score
  }

  /** Every score reached from the initial state keeps the point table
      (total = 10 per black + 20 per white + 50 per queen), and the game is won
      exactly when somebody has reached the win condition and a winner is named. */
  lemma {:induction false} ReplayInvariant(calls: seq<ScoreCall>)
    requires ValidCalls(calls)
    ensures var g := Replay(calls);
            && Consistent(g.player1) && Consistent(g.player2)
            && (g.gameWon <==> g.player1.total >= WinCondition || g.player2.total >= WinCondition)
            && (g.gameWon <==> g.currentWinner.Some?)
            && (g.currentWinner.Some? ==> ScoreOf(g, g.currentWinner.value).total >= WinCondition)
    decreases |calls|
  {
    if |calls| > 0 {
      var init := calls[..|calls| - 1];
      assert ValidCalls(init);
      ReplayInvariant(init);
    }
  }
}

=== FILE: striker_control.dfy ===
/** The striker slider of the game component: placing the striker from the
    slider value, the effect that runs when the value changes, and the flag
    that keeps a received `adjustStriker` from being sent back. React's
    re-render rule is explicit: setting the slider to the value it already
    has does not run the effect. */
module StrikerControl {
  import opened Wrappers
  import opened Geometry
  import opened Bodies
  import opened GameUtils
  import opened GameStateManager

  /** The parts of the component state the slider reads and writes. */
  datatype Client = Client(engineReady: bool, coins: seq<CoinObj>, objects: Option<Board>,
                           slider: real, isRemoteUpdate: bool, isOpponentPlaying: bool)

  /** Everything `updateStrikerPosition` needs before it acts. */
  predicate Ready(c: Client)
  {
    c.engineReady && |c.coins| > 0 && FirstStriker(c.coins).Some? && GeometryReady(c.objects)
  }

  /** The line the striker is placed on. */
  function SideFor(isOpponentPlaying: bool): Side
  {
    if isOpponentPlaying then Top else Bottom
  }

  /** Only bodies change when a striker is moved, so the first striker stays
      where it was in the list. */
  lemma {:induction false} SameKindsSameStriker(a: seq<CoinObj>, b: seq<CoinObj>)
    requires |a| == |b| && forall i :: 0 <= i < |a| ==> a[i].kind == b[i].kind
    ensures FirstStriker(a) == FirstStriker(b)
    decreases |a|
  {
    if |a| > 0 {
      SameKindsSameStriker(a[1..], b[1..]);
    }
  }

  /** `updateStrikerPosition(position)`: the first striker is stopped and put
      at `position` percent along the top line while the opponent is
      playing, the bottom line otherwise, and the opponent flag is cleared.
      When the engine, coins, striker or geometry is missing nothing changes. */
  function UpdateStrikerPosition(c: Client, position: real): (r: Client)
    ensures !Ready(c) ==> r == c
    ensures Ready(c) ==>
              var i, g := FirstStriker(c.coins).value, c.objects.value;
              && Ready(r) && FirstStriker(r.coins) == Some(i)
              && |r.coins| == |c.coins|
              && r.coins[i].body.id == c.coins[i].body.id
              && r.coins[i].body.velocity == Zero && r.coins[i].body.angularVelocity == 0.0
              && r.coins[i].body.position == StrikerPositionOnLine(position / 100.0, SideFor(c.isOpponentPlaying), g)
              && (0.0 <= position <= 100.0 && g.size >= 260.0 ==>
                    OnBaseline(r.coins[i].body.position, SideFor(c.isOpponentPlaying), g))
              && (forall j :: 0 <= j < |c.coins| && j != i ==> r.coins[j] == c.coins[j])
              && !r.isOpponentPlaying
              && r == c.(coins := r.coins, isOpponentPlaying := false)
  {
    if !Ready(c) then c
    else
      var i := FirstStriker(c.coins).value;
      var g := c.objects.value;
      var newPos := StrikerPositionOnLine(position / 100.0, SideFor(c.isOpponentPlaying), g);
      var b := c.coins[i].body.(velocity := Zero, angularVelocity := 0.0, position := newPos);
      var coins' := SetBody(c.coins, i, b);
      SameKindsSameStriker(c.coins, coins');
      c.(coins := coins', isOpponentPlaying := false)
  }

  /** What placing the striker leaves alone, between the state `c` it starts
      from and the state `r` it ends in: the engine, the number of coins, and
      every coin but the first striker, whose identity, kind and mass stay
      too; when the board is not ready, every coin and the opponent flag. */
  predicate TouchesOnlyStriker(c: Client, r: Client)
  {
    && r.engineReady == c.engineReady
    && |r.coins| == |c.coins|
    && (Ready(c) ==>
          var i := FirstStriker(c.coins).value;
          && r.coins[i].kind == c.coins[i].kind
          && r.coins[i].body.id == c.coins[i].body.id
          && r.coins[i].body.mass == c.coins[i].body.mass
          && forall j :: 0 <= j < |c.coins| && j != i ==> r.coins[j] == c.coins[j])
    && (!Ready(c) ==> r.coins == c.coins && r.isOpponentPlaying == c.isOpponentPlaying)
  }

  /** The component state after a change, and the `adjustStriker` position
      sent to the opponent, if any. */
  datatype Outcome = Outcome(client: Client, emitted: Option<real>)

  /** The slider effect: place the striker, send the position unless the
      change came from the opponent or the socket is down, and clear the
      echo flag in every case. */
  function SliderEffect(c: Client, connected: bool): (r: Outcome)
    ensures !r.client.isRemoteUpdate
    ensures r.emitted.Some? <==> !c.isRemoteUpdate && connected
    ensures r.emitted.Some? ==> r.emitted.value == c.slider
    ensures r.client.slider == c.slider && r.client.objects == c.objects
    ensures TouchesOnlyStriker(c, r.client)
    ensures Ready(c) ==>
              var i := FirstStriker(c.coins).value;
              && r.client.coins[i].body.position == StrikerPositionOnLine(c.slider / 100.0, SideFor(c.isOpponentPlaying), c.objects.value)
              && r.client.coins[i].body.velocity == Zero && r.client.coins[i].body.angularVelocity == 0.0
              && !r.client.isOpponentPlaying
  {
    var c' := UpdateStrikerPosition(c, c.slider);
    var emitted := if !c.isRemoteUpdate && connected then Some(c.slider) else None;
    Outcome(c'.(isRemoteUpdate := false), emitted)
  }

  /** `setStrikerPosition(v)`: React runs the slider effect only when the
      value changes, so setting the value the slider already shows does
      nothing at all. */
  function SetSlider(c: Client, v: real, connected: bool): (r: Outcome)
    ensures TouchesOnlyStriker(c, r.client) && r.client.objects == c.objects
    ensures v == c.slider ==> r == Outcome(c, None)
    ensures v != c.slider ==>
              && r.client.slider == v && !r.client.isRemoteUpdate
              && (r.emitted.Some? <==> !c.isRemoteUpdate && connected)
              && (r.emitted.Some? ==> r.emitted.value == v)
    ensures v != c.slider && Ready(c) ==>
              var i := FirstStriker(c.coins).value;
              && r.client.coins[i].body.position == StrikerPositionOnLine(v / 100.0, SideFor(c.isOpponentPlaying), c.objects.value)
              && r.client.coins[i].body.velocity == Zero && r.client.coins[i].body.angularVelocity == 0.0
              && !r.client.isOpponentPlaying
  {
    if v == c.slider then Outcome(c, None) else SliderEffect(c.(slider := v), connected)
  }

  /** `setGameObjects(...)` once the board is built: the slider effect also
      depends on the board geometry, and every call stores a new object, so
      the effect runs with the current slider value. */
  function SetGameObjects(c: Client, g: Board, connected: bool): (r: Outcome)
    ensures TouchesOnlyStriker(c.(objects := Some(g)), r.client)
    ensures r.client.objects == Some(g) && r.client.slider == c.slider && !r.client.isRemoteUpdate
    ensures r.emitted.Some? <==> !c.isRemoteUpdate && connected
    ensures r.emitted.Some? ==> r.emitted.value == c.slider
    ensures Ready(c.(objects := Some(g))) ==>
              var i := FirstStriker(c.coins).value;
              && r.client.coins[i].body.position == StrikerPositionOnLine(c.slider / 100.0, SideFor(c.isOpponentPlaying), g)
              && r.client.coins[i].body.velocity == Zero && r.client.coins[i].body.angularVelocity == 0.0
              && !r.client.isOpponentPlaying
  {
    SliderEffect(c.(objects := Some(g)), connected)
  }

  /** The `adjustStriker` handler as written: both flags are set, then the
      slider takes the received value. The received value is never sent
      back; when it differs from the current one the striker goes to the top
      line and the echo flag is cleared again. */
  function ReceiveAdjust(c: Client, v: real, connected: bool): (r: Outcome)
    ensures r.emitted.None?
    ensures r.client.objects == c.objects
    ensures TouchesOnlyStriker(c.(isOpponentPlaying := true), r.client)
    ensures v == c.slider ==> r.client == c.(isRemoteUpdate := true, isOpponentPlaying := true)
    ensures v != c.slider ==> !r.client.isRemoteUpdate && r.client.slider == v
    ensures v != c.slider && Ready(c) ==>
              var i := FirstStriker(c.coins).value;
              && r.client.coins[i].body.position == StrikerPositionOnLine(v / 100.0, Top, c.objects.value)
              && r.client.coins[i].body.velocity == Zero
              && !r.client.isOpponentPlaying
  {
    SetSlider(c.(isRemoteUpdate := true, isOpponentPlaying := true), v, connected)
  }

  /** The slider moved by the local player. */
  function LocalSlide(c: Client, v: real, connected: bool): (r: Outcome)
    ensures v != c.slider && !c.isRemoteUpdate && connected ==> r.emitted == Some(v)
    ensures v == c.slider ==> r.emitted.None?
  {
    SetSlider(c, v, connected)
  }

  /** An opponent's `adjustStriker` carrying the value the slider already
      shows runs no effect, so both flags stay set: the local player's next
      slider move is not sent, and it puts the local striker on the top line. */
  lemma StaleFlagsAfterEqualAdjust(c: Client, v: real, v': real)
    requires Ready(c) && !c.isRemoteUpdate && c.slider == v && v' != v
    ensures var after := ReceiveAdjust(c, v, true).client;
            && after.isRemoteUpdate && after.isOpponentPlaying
            && LocalSlide(after, v', true).emitted.None?
            && LocalSlide(after, v', true).client.coins[FirstStriker(c.coins).value].body.position
               == StrikerPositionOnLine(v' / 100.0, Top, c.objects.value)
  {
  }

  /** The `adjustStriker` handler as intended: the received position is
      applied whether or not it differs from the current one, so the echo
      flag never outlives the message. */
  function ReceiveAdjustCorrected(c: Client, v: real, connected: bool): (r: Outcome)
    ensures TouchesOnlyStriker(c.(isOpponentPlaying := true), r.client) && r.client.objects == c.objects
    ensures r.emitted.None?
    ensures !r.client.isRemoteUpdate && r.client.slider == v
    ensures Ready(c) ==>
              && !r.client.isOpponentPlaying
              && r.client.coins[FirstStriker(c.coins).value].body.position
                 == StrikerPositionOnLine(v / 100.0, Top, c.objects.value)
              && r.client.coins[FirstStriker(c.coins).value].body.velocity == Zero
  {
    SliderEffect(c.(isRemoteUpdate := true, isOpponentPlaying := true, slider := v), connected)
  }

  /** With the corrected handler, the local player's next move after any
      received position is sent and lands on the bottom line. */
  lemma CorrectedAdjustThenLocalSlide(c: Client, v: real, v': real)
    requires Ready(c) && v' != v
    ensures var after := ReceiveAdjustCorrected(c, v, true).client;
            && LocalSlide(after, v', true).emitted == Some(v')
            && LocalSlide(after, v', true).client.coins[FirstStriker(c.coins).value].body.position
               == StrikerPositionOnLine(v' / 100.0, Bottom, c.objects.value)
  {
  }

  /** The board geometry `updateStrikerPosition` sees when it is called
      from a closure made during the first render, before the board exists. */
  const FirstRenderObjects: Option<Board> := None

  /** The `onAllStopped` callback as written. The game loop is set up once,
      at mount, so it keeps the first render's `checkAllStopped`, whose
      `onAllStopped` calls the first render's `updateStrikerPosition`: that
      call sees no board geometry and changes nothing. Only the slider reset
      to 50 has an effect, so a slider already at 50 leaves the striker
      wherever it came to rest. */
  function AfterAllStopped(c: Client, connected: bool): (r: Outcome)
    ensures TouchesOnlyStriker(c, r.client) && r.client.objects == c.objects
    ensures r.client.slider == 50.0
    ensures c.slider == 50.0 ==> r == Outcome(c, None)
    ensures c.slider != 50.0 ==>
              && !r.client.isRemoteUpdate
              && (r.emitted.Some? <==> !c.isRemoteUpdate && connected)
              && (r.emitted.Some? ==> r.emitted.value == 50.0)
    ensures c.slider != 50.0 && Ready(c) ==>
              var i := FirstStriker(c.coins).value;
              && r.client.coins[i].body.position == StrikerPositionOnLine(0.5, SideFor(c.isOpponentPlaying), c.objects.value)
              && r.client.coins[i].body.velocity == Zero && r.client.coins[i].body.angularVelocity == 0.0
              && !r.client.isOpponentPlaying
  {
    var o := SetSlider(c, 50.0, connected);
    var stale := UpdateStrikerPosition(o.client.(objects := FirstRenderObjects), 50.0);
    Outcome(stale.(objects := o.client.objects), o.emitted)
  }

  /** With the slider already at 50, the striker is not brought back: it
      stays where it stopped, while the intended callback puts it in the
      middle of the bottom line. */
  lemma StrikerNotResetAtFifty(c: Client, connected: bool)
    requires Ready(c) && c.slider == 50.0 && !c.isOpponentPlaying
    requires c.coins[FirstStriker(c.coins).value].body.position != StrikerPositionOnLine(0.5, Bottom, c.objects.value)
    ensures var i := FirstStriker(c.coins).value;
            && AfterAllStopped(c, connected).client.coins[i].body.position == c.coins[i].body.position
            && AfterAllStopped(c, connected).client.coins[i].body.position != StrikerPositionOnLine(0.5, Bottom, c.objects.value)
            && AfterAllStoppedCorrected(c, connected).client.coins[i].body.position == StrikerPositionOnLine(0.5, Bottom, c.objects.value)
  {
  }

  /** The `onAllStopped` callback as intended: the slider goes back to 50,
      then the striker is placed at 50 with the current board geometry.
      Unless the opponent flag is left over with the slider already at 50,
      the striker ends at rest in the middle of the bottom line. */
  function AfterAllStoppedCorrected(c: Client, connected: bool): (r: Outcome)
    ensures TouchesOnlyStriker(c, r.client) && r.client.objects == c.objects
    ensures r.client.slider == 50.0
    ensures r.client.isRemoteUpdate == (c.slider == 50.0 && c.isRemoteUpdate)
    ensures r.emitted.Some? <==> c.slider != 50.0 && !c.isRemoteUpdate && connected
    ensures Ready(c) && (c.slider != 50.0 || !c.isOpponentPlaying) ==>
              var i := FirstStriker(c.coins).value;
              && r.client.coins[i].body.position == StrikerPositionOnLine(0.5, Bottom, c.objects.value)
              && r.client.coins[i].body.velocity == Zero
              && !r.client.isOpponentPlaying
    ensures r.emitted.Some? ==> r.emitted.value == 50.0
    ensures Ready(c) ==> !r.client.isOpponentPlaying
  {
    var o := SetSlider(c, 50.0, connected);
    Outcome(UpdateStrikerPosition(o.client, 50.0), o.emitted)
  }
}

=== FILE: wrappers.dfy ===
/** The optional value used wherever the game code returns `null`/`undefined`
    or keeps a nullable reference. */
module Wrappers {

  datatype Option<+T> = None | Some(value: T)
}
